=== FILE: README.md ===
# AIMLib control and drive core in Dafny

This project models the control and drive core of AIMLib, a library for FTC
robots. It covers:

- **LowPassFilter**: a one-pole exponential smoother.
- **FeedforwardController**: `kV·v + kA·a + cos(targetPos)·kCos + kG`.
- **PIDController**: a PID with a filtered derivative, a magnitude-clamped
  integral, and an integral reset when the error changes sign.
- **SimpleControlSystem**: a PID on a filtered measurement, plus a
  feedforward on the target.
- **AIMPad**: a double-buffered gamepad that reports pressed, released and
  held edges for every button, trigger and stick.
- **MecanumDrivebase**: a three-mode state machine. The modes are ARCADE,
  FIELD_CENTRIC and DIRECTION_DEBUGGING. It includes the mecanum
  mixer with L1 normalisation and the list of IMU mounting orientations.

Every component is an immutable datatype. Each call of the source
(`filter`, `calculate`, `update`, `loop`) is a pure function that returns
the new state and the value returned. Hardware effects are modelled as
follows:

- the power and direction last commanded to each motor are fields of the
  state;
- the IMU orientation handed to `imu.initialize` is returned with each step
  (`LoopStep.imuInit`, and the `imuInit` result of `Init`). The state
  keeps only the list of orientations and the index into it.

The elapsed time `dt`, the robot heading, and `Math.cos` and `Math.sin` are
inputs. Doubles are modelled as `real`.

| file | module | models |
|---|---|---|
| real_math.dfy | RealMath | `Math.abs`, `max`, `signum` and small facts about reals |
| low_pass_filter.dfy | LowPass | LowPassFilter.java |
| feedforward.dfy | Feedforward | FeedforwardController.java |
| pid_controller.dfy | Pid | PIDController.java |
| control_system.dfy | ControlSystem | SimpleControlSystem.java |
| aim_pad.dfy | Gamepad | AIMPad.java |
| imu_orientation.dfy | ImuOrientation | `getAllIMUParameters` and `isOpposite` of MecanumDrivebase.java |
| mecanum_kinematics.dfy | MecanumKinematics | the wheel-power formulas of `arcadeDrive` and `fieldCentricDrive` |
| mecanum_drivebase.dfy | MecanumDrivebase | `init`, `loop` and the three mode handlers of MecanumDrivebase.java |

## Model

| member | source | states |
|---|---|---|
| LowPass.Init | AIMLib/src/main/java/com/aimrobotics/aimlib/control/LowPassFilter.java:14-22 | A new filter keeps the given gain and remembers an output of 0. |
| LowPass.Filter | AIMLib/src/main/java/com/aimrobotics/aimlib/control/LowPassFilter.java:29-33 | The gain is unchanged. The stored state equals the value returned. The gap between output and input is the previous gap scaled by the gain: `output − input = gain·(prev − input)`. |
| LowPass.FirstOutput | AIMLib/src/main/java/com/aimrobotics/aimlib/control/LowPassFilter.java:14 | Because the state starts at 0, the first output is `(1 − gain)·input`. |
| LowPass.ZeroGainPassesInput | AIMLib/src/main/java/com/aimrobotics/aimlib/control/LowPassFilter.java:30 | With gain 0 the output equals the input. |
| LowPass.OutputBetweenPreviousAndInput | AIMLib/src/main/java/com/aimrobotics/aimlib/control/LowPassFilter.java:30 | With a gain in [0, 1], the output lies between min and max of the previous output and the input. |
| LowPass.ConstantInputContracts | AIMLib/src/main/java/com/aimrobotics/aimlib/control/LowPassFilter.java:30 | For a constant input c and a gain in [0, 1), the distance to c strictly shrinks unless it is already 0, and the output stays on its side of c. |
| LowPass.FilterConstantClosedForm | AIMLib/src/main/java/com/aimrobotics/aimlib/control/LowPassFilter.java:29-32 | After n calls with input c, the distance to c is `gainⁿ` times the initial distance, and the gain never changes. |
| LowPass.FilterConstantMonotone | AIMLib/src/main/java/com/aimrobotics/aimlib/control/LowPassFilter.java:29-32 | With a gain in [0, 1), over any number of calls with the same input, the distance to c never grows and the output never crosses c. |
| Feedforward.Calculate | AIMLib/src/main/java/com/aimrobotics/aimlib/control/FeedforwardController.java:27-29 | Holding still (v = a = 0) leaves only `cos(targetPos)·kCos + kG`. Without arm compensation (kCos = 0) the output is `kV·v + kA·a + kG`, whatever the target. |
| Feedforward.StaticGainUnused | AIMLib/src/main/java/com/aimrobotics/aimlib/control/FeedforwardController.java:19-28 | `kStatic` is stored but never changes the output. |
| Feedforward.CosineOfRawTarget | AIMLib/src/main/java/com/aimrobotics/aimlib/control/FeedforwardController.java:28 | The cosine is sampled at `targetPos` exactly as passed. Two cosines that agree there give the same output, so no unit conversion happens first. |
| Feedforward.AffineWithoutCosine | AIMLib/src/main/java/com/aimrobotics/aimlib/control/FeedforwardController.java:28 | With `kCos = 0` the output is `kV·v + kA·a + kG`, whatever the target. |
| Feedforward.ReferenceTermsAreLinear | AIMLib/src/main/java/com/aimrobotics/aimlib/control/FeedforwardController.java:28 | Adding (dv, da) to the references adds exactly `kV·dv + kA·da` to the output. |
| Pid.Init | AIMLib/src/main/java/com/aimrobotics/aimlib/control/PIDController.java:16-40 | A new controller has not started. Its integral sum and previous error are 0. Its derivative filter is new and has the given gain. |
| Pid.HasErrorCrossedZero | AIMLib/src/main/java/com/aimrobotics/aimlib/control/PIDController.java:104-106 | A zero error, now or before, is never a crossing. |
| Pid.CrossingIsNegativeProduct | AIMLib/src/main/java/com/aimrobotics/aimlib/control/PIDController.java:104-106 | `hasErrorCrossedZero` holds exactly when the error times the previous error is negative. A zero on either side is no crossing. |
| Pid.ClampMagnitude | AIMLib/src/main/java/com/aimrobotics/aimlib/control/PIDController.java:94-96 | For a non-negative cap, the signum clamp is clipping to [−max, max], so the magnitude is at most max. |
| Pid.ClampKeepsSign | AIMLib/src/main/java/com/aimrobotics/aimlib/control/PIDController.java:94-96 | For a non-negative cap, clamping never changes the sign. For a negative cap, a sum becomes `signum(sum)·max`, which flips its sign. |
| Pid.Integrate | AIMLib/src/main/java/com/aimrobotics/aimlib/control/PIDController.java:89-97 | For a non-negative cap, the new integral sum has magnitude at most the cap. |
| Pid.IntegrateResetsOnSignChange | AIMLib/src/main/java/com/aimrobotics/aimlib/control/PIDController.java:90-93 | On a strict sign change the old sum is discarded and the new sum is `clamp(error·dt)`. Otherwise, including a zero error on either side, it is `clamp(sum + error·dt)`. |
| Pid.CalculateDerivative | AIMLib/src/main/java/com/aimrobotics/aimlib/control/PIDController.java:78-82 | The slope `(error − previousError)/dt` goes through the PID's own filter: the derivative returned moves from the filter's previous output towards the slope, the gap shrinking by the gain. The filter keeps its gain and its state is the derivative returned. |
| Pid.Calculate | AIMLib/src/main/java/com/aimrobotics/aimlib/control/PIDController.java:48-69 | `hasStarted` becomes true and the gains are unchanged. The derivative filter receives `(error − old previousError)/dt`, and previousError becomes the error only afterwards. The integral follows `integrate` within the cap. The output is `kP·error + kI·newSum + kD·filteredDerivative`. |
| Pid.ProportionalOnly | AIMLib/src/main/java/com/aimrobotics/aimlib/control/PIDController.java:54 | With kI = kD = 0 the output is `kP·(target − current)` for every dt. |
| Pid.CalculateEntersSetting | AIMLib/src/main/java/com/aimrobotics/aimlib/control/PIDController.java:48-55 | One call with a positive error, dt > 0 and a cap that is not negative enters that setting from any state, so every constant positive error is in it from its second call on. |
| Pid.ConstantErrorStep | AIMLib/src/main/java/com/aimrobotics/aimlib/control/PIDController.java:89-97 | Take a constant positive error, a previous error that is not negative, and a sum within [−max, max]. One call does not reset, adds `error·dt` up to the cap, and stays in that setting. |
| Pid.RunConstantFollowsCappedSum | AIMLib/src/main/java/com/aimrobotics/aimlib/control/PIDController.java:89-97 | With a constant positive error, starting from a previous error that is not negative and a sum within the cap, after n calls the sum is the start capped after each addition of `error·dt`. The setting and the gains are kept. |
| Pid.AccumulatedIsMultiple | AIMLib/src/main/java/com/aimrobotics/aimlib/control/PIDController.java:93 | The running sum of n additions of `error·dt`, as line 93 adds them one call at a time, is `n·error·dt`. |
| Pid.ConstantErrorSaturates | AIMLib/src/main/java/com/aimrobotics/aimlib/control/PIDController.java:89-97 | In the same setting (previous error not negative, sum within the cap), after n calls the sum is `min(sum₀ + Accumulated(error·dt, n), max)`; with `Pid.AccumulatedIsMultiple` that is `min(sum₀ + n·error·dt, max)`. |
| Pid.IntegralSumRisesToCap | AIMLib/src/main/java/com/aimrobotics/aimlib/control/PIDController.java:89-97 | In the same setting the sum never decreases from one call to the next. Once `sum₀ + n·error·dt` reaches the cap, the sum sits exactly at the cap. |
| Pid.IntegralSumRisesBelowCap | AIMLib/src/main/java/com/aimrobotics/aimlib/control/PIDController.java:89-97 | In the same setting, every call made while the sum is below the cap strictly increases it. |
| Pid.NegativePreviousErrorResets | AIMLib/src/main/java/com/aimrobotics/aimlib/control/PIDController.java:89-97 | Why the setting needs a previous error that is not negative: errors +5, 0, −1 (dt 1, cap 10) leave sum 4 and previous error −1, and a following error +1 is a sign change that drops the sum to 1. |
| Pid.SignFlipResetsIntegral | AIMLib/src/main/java/com/aimrobotics/aimlib/control/PIDController.java:90-93 | Errors +1, +1, −1 from a new controller leave the sum at `dt1 + dt2`, then at `−dt3`, not at the accumulated total. |
| ControlSystem.Init | AIMLib/src/main/java/com/aimrobotics/aimlib/control/SimpleControlSystem.java:14-26 | The three parts are kept as given and the target starts at 0. |
| ControlSystem.Update | AIMLib/src/main/java/com/aimrobotics/aimlib/control/SimpleControlSystem.java:55-58 | The measurement filter advances exactly once, on the raw state. The PID advances by exactly one `calculate` of the target against the filtered value, so its integral, derivative filter and start flag follow that call. The feedforward gets the target, not the state. The output is their sum. The target and the feedforward are unchanged. |
| ControlSystem.UpdateState | AIMLib/src/main/java/com/aimrobotics/aimlib/control/SimpleControlSystem.java:33-35 | The one-argument update is the PID output plus `cos(target)·kCos + kG`. |
| ControlSystem.UpdateVelocity | AIMLib/src/main/java/com/aimrobotics/aimlib/control/SimpleControlSystem.java:43-45 | The two-argument update adds `kV·v`, and no acceleration term. |
| ControlSystem.OverloadsDefaultToZero | AIMLib/src/main/java/com/aimrobotics/aimlib/control/SimpleControlSystem.java:33-45 | `update(s) = update(s, 0, 0)` and `update(s, v) = update(s, v, 0)`. |
| ControlSystem.SetTarget | AIMLib/src/main/java/com/aimrobotics/aimlib/control/SimpleControlSystem.java:65-67 | Only the target changes. The PID, the feedforward and the filter are untouched. |
| ControlSystem.SetTargetThenUpdate | AIMLib/src/main/java/com/aimrobotics/aimlib/control/SimpleControlSystem.java:55-67 | The next update steers to the target just set and keeps it. The PID's remembered error is that target minus the filtered state. |
| ControlSystem.TransparentFilterPassesState | AIMLib/src/main/java/com/aimrobotics/aimlib/control/SimpleControlSystem.java:56 | With a measurement filter of gain 0, the PID sees the raw state. |
| ControlSystem.ProportionalSystem | AIMLib/src/main/java/com/aimrobotics/aimlib/control/SimpleControlSystem.java:55-58 | Take a P-only PID, a gain-0 filter and an all-zero feedforward. Then `update(state)` returns `kP·(target − state)`. |
| Gamepad.IsDown | AIMLib/src/main/java/com/aimrobotics/aimlib/gamepad/AIMPad.java:89-668 | What each query tests in a snapshot: a button when set, a trigger when above 0, a stick when either axis is off 0. Only a non-neutral snapshot has anything down. |
| Gamepad.AnalogInputsDown | AIMLib/src/main/java/com/aimrobotics/aimlib/gamepad/AIMPad.java:515-668 | A trigger is down exactly when its value is > 0. A stick is engaged exactly when x ≠ 0 or y ≠ 0. |
| Gamepad.NeutralHasNothingDown | AIMLib/src/main/java/com/aimrobotics/aimlib/gamepad/AIMPad.java:21-24 | No input is down in a freshly constructed gamepad snapshot. |
| Gamepad.Init | AIMLib/src/main/java/com/aimrobotics/aimlib/gamepad/AIMPad.java:21-24 | The constructor ignores its argument and both snapshots start neutral. |
| Gamepad.Update | AIMLib/src/main/java/com/aimrobotics/aimlib/gamepad/AIMPad.java:30-33 | The old current snapshot becomes the previous one, and the given snapshot becomes current. |
| Gamepad.IsButtonHeld | AIMLib/src/main/java/com/aimrobotics/aimlib/gamepad/AIMPad.java:61-63 | Held means down now and unchanged since the previous snapshot. |
| Gamepad.IsButtonPressed | AIMLib/src/main/java/com/aimrobotics/aimlib/gamepad/AIMPad.java:41-43 | A press is an input down now that is not being held. |
| Gamepad.IsButtonReleased | AIMLib/src/main/java/com/aimrobotics/aimlib/gamepad/AIMPad.java:51-53 | A release is a press seen backwards in time (previous and current swapped). |
| Gamepad.Is | AIMLib/src/main/java/com/aimrobotics/aimlib/gamepad/AIMPad.java:89-668 | Every per-input query is one of the three helpers on that input's state in the two snapshots. Any edge needs the input down in one of them, and two equal snapshots report nothing but held. |
| Gamepad.EdgeTable | AIMLib/src/main/java/com/aimrobotics/aimlib/gamepad/AIMPad.java:41-63 | Pressed is cur ∧ ¬prev, released is ¬cur ∧ prev, held is cur ∧ prev. At most one holds. They recover both snapshots: down now ⇔ pressed ∨ held, down before ⇔ released ∨ held. |
| Gamepad.NoEdgesBeforeUpdate | AIMLib/src/main/java/com/aimrobotics/aimlib/gamepad/AIMPad.java:21-24 | Before any update, no pressed, released or held query is true. |
| Gamepad.PressHoldReleaseSequence | AIMLib/src/main/java/com/aimrobotics/aimlib/gamepad/AIMPad.java:30-63 | Feeding up, down, down, up to a new pad reads as nothing, pressed, held, released. |
| Gamepad.RepeatedSnapshotIsSteady | AIMLib/src/main/java/com/aimrobotics/aimlib/gamepad/AIMPad.java:30-63 | After the same snapshot twice, nothing is pressed or released, and exactly the inputs down in it are held. |
| Gamepad.AnyDPad | AIMLib/src/main/java/com/aimrobotics/aimlib/gamepad/AIMPad.java:201-206 | `isAnyDPad*` holds exactly when some D-pad input has that edge. |
| Gamepad.AnyBumper | AIMLib/src/main/java/com/aimrobotics/aimlib/gamepad/AIMPad.java:212-215 | `isAnyBumper*` holds exactly when some bumper has that edge. |
| Gamepad.AnyTrigger | AIMLib/src/main/java/com/aimrobotics/aimlib/gamepad/AIMPad.java:563-584 | `isAnyTrigger*` holds exactly when some trigger has that edge. |
| Gamepad.AnyButton | AIMLib/src/main/java/com/aimrobotics/aimlib/gamepad/AIMPad.java:678-732 | The OR of the 13 listed queries holds exactly when any of the 18 inputs has that edge, triggers and stick movement included. |
| Gamepad.CurrentState | AIMLib/src/main/java/com/aimrobotics/aimlib/gamepad/AIMPad.java:69-71 | `getCurrentState` hands out the current snapshot. |
| Gamepad.PreviousState | AIMLib/src/main/java/com/aimrobotics/aimlib/gamepad/AIMPad.java:77-79 | `getPreviousState` hands out the previous snapshot. |
| Gamepad.LeftTriggerValue | AIMLib/src/main/java/com/aimrobotics/aimlib/gamepad/AIMPad.java:499-501 | `getLeftTrigger` reads the current snapshot. |
| Gamepad.RightTriggerValue | AIMLib/src/main/java/com/aimrobotics/aimlib/gamepad/AIMPad.java:507-509 | `getRightTrigger` reads the current snapshot. |
| Gamepad.LeftStickX | AIMLib/src/main/java/com/aimrobotics/aimlib/gamepad/AIMPad.java:594-596 | `getLeftStickX` reads the current snapshot. |
| Gamepad.LeftStickY | AIMLib/src/main/java/com/aimrobotics/aimlib/gamepad/AIMPad.java:602-604 | `getLeftStickY` reads the current snapshot; forward on the stick is negative. |
| Gamepad.RightStickX | AIMLib/src/main/java/com/aimrobotics/aimlib/gamepad/AIMPad.java:610-612 | `getRightStickX` reads the current snapshot. |
| Gamepad.RightStickY | AIMLib/src/main/java/com/aimrobotics/aimlib/gamepad/AIMPad.java:618-620 | `getRightStickY` reads the current snapshot. |
| Gamepad.GettersReadLatestSnapshot | AIMLib/src/main/java/com/aimrobotics/aimlib/gamepad/AIMPad.java:69-620 | After an update, every value getter reads the snapshot just given, and the previous-state getter returns the snapshot current before. |
| ImuOrientation.IsOpposite | AIMLib/src/main/java/com/aimrobotics/aimlib/OpModes/mecanum/MecanumDrivebase.java:276-283 | `isOpposite` lists six (logo, usb) pairs; none pairs a face with itself. |
| ImuOrientation.Opposite | AIMLib/src/main/java/com/aimrobotics/aimlib/OpModes/mecanum/MecanumDrivebase.java:276-283 | No face is its own opposite. |
| ImuOrientation.IsOppositeMeansOpposite | AIMLib/src/main/java/com/aimrobotics/aimlib/OpModes/mecanum/MecanumDrivebase.java:276-283 | The six listed pairs are exactly (face, opposite face). The relation is symmetric and irreflexive, and the opposite of the opposite is the face. |
| ImuOrientation.IsAdmissible | AIMLib/src/main/java/com/aimrobotics/aimlib/OpModes/mecanum/MecanumDrivebase.java:265 | An orientation is kept exactly when the USB face is neither the logo face nor its opposite. |
| ImuOrientation.RowMembers | AIMLib/src/main/java/com/aimrobotics/aimlib/OpModes/mecanum/MecanumDrivebase.java:264-269 | The inner loop keeps exactly the admissible pairs with its logo direction. |
| ImuOrientation.TableMembers | AIMLib/src/main/java/com/aimrobotics/aimlib/OpModes/mecanum/MecanumDrivebase.java:263-271 | The two loops keep exactly the admissible pairs over the enumerated directions. |
| ImuOrientation.TableOfAllDirections | AIMLib/src/main/java/com/aimrobotics/aimlib/OpModes/mecanum/MecanumDrivebase.java:260-274 | Over all six directions the list is 24 orientations in logo-major order. The first is logo up, USB forward. |
| ImuOrientation.CollectAdmissible | AIMLib/src/main/java/com/aimrobotics/aimlib/OpModes/mecanum/MecanumDrivebase.java:261-273 | The nested loops, for any enumeration order, return the admissible pairs in the order met. An orientation is in the list exactly when its directions are enumerated and admissible. |
| ImuOrientation.GetAllImuParameters | AIMLib/src/main/java/com/aimrobotics/aimlib/OpModes/mecanum/MecanumDrivebase.java:260-274 | The list holds exactly the (logo, usb) pairs whose names differ and are not opposite. It has 24 entries, starting with logo up, USB forward. |
| MecanumKinematics.Denominator | AIMLib/src/main/java/com/aimrobotics/aimlib/OpModes/mecanum/MecanumDrivebase.java:146 | The denominator is at least 1 and at least `|y|+|x|+|rx|`. It is exactly 1 when that sum is at most 1, and exactly the sum when the sum is at least 1. |
| MecanumKinematics.RawPowers | AIMLib/src/main/java/com/aimrobotics/aimlib/OpModes/mecanum/MecanumDrivebase.java:147-150 | The four unnormalised sums, left front `y+x+rx`, right front `y−x−rx`, left rear `y−x+rx`, right rear `y+x−rx`; their partner is `RawPowersRoundTrip`. |
| MecanumKinematics.RawPowersWithinL1 | AIMLib/src/main/java/com/aimrobotics/aimlib/OpModes/mecanum/MecanumDrivebase.java:147-150 | No unnormalised wheel sum exceeds `|y|+|x|+|rx|` in magnitude. |
| MecanumKinematics.RawPowersReachL1 | AIMLib/src/main/java/com/aimrobotics/aimlib/OpModes/mecanum/MecanumDrivebase.java:147-150 | Some unnormalised sum has magnitude exactly `|y|+|x|+|rx|`: the four mixes cover every sign pattern. |
| MecanumKinematics.Normalize | AIMLib/src/main/java/com/aimrobotics/aimlib/OpModes/mecanum/MecanumDrivebase.java:147-150 | The quotient times the denominator gives the sum back. Dividing by 1 changes nothing. |
| MecanumKinematics.ScaleDown | AIMLib/src/main/java/com/aimrobotics/aimlib/OpModes/mecanum/MecanumDrivebase.java:146-150 | Every sum is divided by the same denominator. If no sum exceeds it the powers lie in [−1, 1]; a sum equal to it in magnitude becomes a full power. |
| MecanumKinematics.WheelPowers | AIMLib/src/main/java/com/aimrobotics/aimlib/OpModes/mecanum/MecanumDrivebase.java:146-152 | Each power is its unnormalised sum divided by the denominator, and all lie in [−1, 1]. When `|y|+|x|+|rx| ≤ 1` they equal the sums. When it is ≥ 1 some wheel runs at full power (magnitude 1). |
| MecanumKinematics.RawPowersRoundTrip | AIMLib/src/main/java/com/aimrobotics/aimlib/OpModes/mecanum/MecanumDrivebase.java:147-150 | Forward mecanum kinematics applied to the four sums recovers (y, x, rx). |
| MecanumKinematics.WheelPowersRoundTrip | AIMLib/src/main/java/com/aimrobotics/aimlib/OpModes/mecanum/MecanumDrivebase.java:146-150 | The normalised powers produce the requested motion divided by the denominator, so the direction is kept. A small request is produced exactly. |
| MecanumDrivebase.Toggle | AIMLib/src/main/java/com/aimrobotics/aimlib/OpModes/mecanum/MecanumDrivebase.java:212-218 | The A press always flips the direction: REVERSE to FORWARD and FORWARD to REVERSE. |
| MecanumDrivebase.Init | AIMLib/src/main/java/com/aimrobotics/aimlib/OpModes/mecanum/MecanumDrivebase.java:42-80 | After construction and `init`: ARCADE mode, the given multipliers, the left motors reversed, the left-front motor selected, and index 0. The list is the 24 admissible orientations, and the IMU gets logo up, USB forward. The state is valid. |
| MecanumDrivebase.BumperChord | AIMLib/src/main/java/com/aimrobotics/aimlib/OpModes/mecanum/MecanumDrivebase.java:131 | The chord test holds exactly when every bumper has a press edge in this cycle. |
| MecanumDrivebase.DPadPressed | AIMLib/src/main/java/com/aimrobotics/aimlib/OpModes/mecanum/MecanumDrivebase.java:133 | The inline D-pad test holds exactly when some D-pad direction has a press edge. |
| MecanumDrivebase.DPadPressedIsAnyDPad | AIMLib/src/main/java/com/aimrobotics/aimlib/OpModes/mecanum/MecanumDrivebase.java:133 | The inline D-pad test (up, right, left, down) equals `isAnyDPadPressed`. |
| MecanumDrivebase.ArcadeTwist | AIMLib/src/main/java/com/aimrobotics/aimlib/OpModes/mecanum/MecanumDrivebase.java:142-144 | With positive multipliers, the requested forward motion is positive exactly when the left stick is pushed forward (its y is negative); strafe and turn follow the sign of their stick x. |
| MecanumDrivebase.Rotate | AIMLib/src/main/java/com/aimrobotics/aimlib/OpModes/mecanum/MecanumDrivebase.java:177-179 | For a true rotation (cos² + sin² = 1) turning back by the opposite angle recovers the stick, and the length is kept. |
| MecanumDrivebase.FieldCentricTwist | AIMLib/src/main/java/com/aimrobotics/aimlib/OpModes/mecanum/MecanumDrivebase.java:171-179 | The left stick is rotated by −heading first and only then scaled by the x and y multipliers; the turn is scaled but not rotated. With unit multipliers and a true rotation, turning the requested motion back by the heading gives the stick again. |
| MecanumDrivebase.ArcadeDrive | AIMLib/src/main/java/com/aimrobotics/aimlib/OpModes/mecanum/MecanumDrivebase.java:130-153 | The powers commanded are the mecanum mix of the arcade motion. Only the mode and the powers change. Every power is in [−1, 1]. The mode can only become FIELD_CENTRIC or DIRECTION_DEBUGGING, or stay. |
| MecanumDrivebase.FieldCentricDrive | AIMLib/src/main/java/com/aimrobotics/aimlib/OpModes/mecanum/MecanumDrivebase.java:159-189 | The powers commanded are the mecanum mix of the field-centric motion. Only the mode and the powers change. Every power is in [−1, 1] for any heading, cosine and sine. The mode can only become ARCADE or DIRECTION_DEBUGGING, or stay. |
| MecanumDrivebase.SelectDebugMotor | AIMLib/src/main/java/com/aimrobotics/aimlib/OpModes/mecanum/MecanumDrivebase.java:197-205 | Each motor is selected exactly when its D-pad direction is the first pressed in the order up (left-front), right (right-front), left (left-rear), down (right-rear), or when nothing on the D-pad is pressed and it was already selected. |
| MecanumDrivebase.DebugPower | AIMLib/src/main/java/com/aimrobotics/aimlib/OpModes/mecanum/MecanumDrivebase.java:207-211 | The power is 0.7 exactly on a Y press edge, and 0 otherwise, including while Y is held. |
| MecanumDrivebase.DirectionDebug | AIMLib/src/main/java/com/aimrobotics/aimlib/OpModes/mecanum/MecanumDrivebase.java:195-225 | The mode is unchanged. The selected motor follows D-pad priority and gets the Y power. Its direction flips exactly on an A press. On a B press the index becomes `(index + 1) mod n`, stays below n, and that orientation goes to the IMU. Without B, no re-initialisation. The other motors and everything else are unchanged. |
| MecanumDrivebase.Loop | AIMLib/src/main/java/com/aimrobotics/aimlib/OpModes/mecanum/MecanumDrivebase.java:87-99 | The handler of the mode held at entry runs: ARCADE gives `arcadeDrive`, FIELD_CENTRIC `fieldCentricDrive`, DIRECTION_DEBUGGING `directionDebugging`. Validity is preserved (list non-empty, index inside, powers in [−1, 1]). The list and multipliers never change. DIRECTION_DEBUGGING stays. The drive modes never touch the IMU. |
| MecanumDrivebase.DebugStepValid | AIMLib/src/main/java/com/aimrobotics/aimlib/OpModes/mecanum/MecanumDrivebase.java:207-224 | A debugging cycle keeps every power in [−1, 1] and the index inside the list. |
| MecanumDrivebase.ArcadeTransitions | AIMLib/src/main/java/com/aimrobotics/aimlib/OpModes/mecanum/MecanumDrivebase.java:131-135 | In ARCADE: both bumpers pressed go to FIELD_CENTRIC; otherwise any D-pad press goes to DIRECTION_DEBUGGING; otherwise the mode stays. The chord wins. |
| MecanumDrivebase.FieldCentricTransitions | AIMLib/src/main/java/com/aimrobotics/aimlib/OpModes/mecanum/MecanumDrivebase.java:160-164 | In FIELD_CENTRIC: both bumpers pressed go to ARCADE; otherwise any D-pad press goes to DIRECTION_DEBUGGING; otherwise the mode stays. |
| MecanumDrivebase.DebuggingIsAbsorbing | AIMLib/src/main/java/com/aimrobotics/aimlib/OpModes/mecanum/MecanumDrivebase.java:195-225 | Over any sequence of cycles, DIRECTION_DEBUGGING is never left, and validity is kept throughout. |
| MecanumDrivebase.ModeChangeTakesEffectNextLoop | AIMLib/src/main/java/com/aimrobotics/aimlib/OpModes/mecanum/MecanumDrivebase.java:87-99 | The chord cycle in ARCADE still drives with the arcade mix. Only the next cycle uses the field-centric mix. |
| MecanumDrivebase.FieldCentricAtZeroHeading | AIMLib/src/main/java/com/aimrobotics/aimlib/OpModes/mecanum/MecanumDrivebase.java:171-179 | With cos(−h) = 1 and sin(−h) = 0 the field-centric motion is the arcade motion. |
| MecanumDrivebase.PureForwardStick | AIMLib/src/main/java/com/aimrobotics/aimlib/OpModes/mecanum/MecanumDrivebase.java:142-152 | With unit multipliers, a left stick moved only along y (right stick centred) drives all four wheels alike at `−y`, its forward deflection. |
| MecanumDrivebase.DebuggingKeepsDrivingPowers | AIMLib/src/main/java/com/aimrobotics/aimlib/OpModes/mecanum/MecanumDrivebase.java:195-211 | A D-pad press in ARCADE without the bumper chord (which is tested first and wins) enters DIRECTION_DEBUGGING, and the next cycle changes only the selected motor: the other three keep the last arcade powers. |
| MecanumDrivebase.DebugIndexWraps | AIMLib/src/main/java/com/aimrobotics/aimlib/OpModes/mecanum/MecanumDrivebase.java:220-224 | A B press at the last orientation wraps to the first and hands it to the IMU. |

## Left out

- Hardware I/O is not modelled as calls. This covers `hwMap.get`, `setPower`, `setDirection`, `setZeroPowerBehaviors`, `imu.initialize` and the IMU yaw read. Powers, directions and the IMU orientation are fields or outputs instead, and the heading is a parameter.
- `telemetry` (MecanumDrivebase.java:232-258) is display only.
- The `ElapsedTime` clock of `getDT` is not modelled: `dt` is a parameter of `Pid.Calculate`, and `hasStarted` is set but affects nothing. In the source the first `calculate` resets the timer just before reading it (PIDController.java:62-67), so its `dt` is about 0. That first derivative is then `error/≈0`, a spike, or an infinity or NaN if the clock reads exactly 0, and the filter carries it into later calls. The model lets the caller choose the first `dt`, so it does not show that spike.
- `Pid.Calculate` requires `dt > 0`. The source divides by `dt` unguarded. A zero `dt` gives an infinity, or NaN when the error is unchanged. A negative `dt` cannot come from `ElapsedTime.seconds()`, and it would only flip the sign of the slope.
- `Math.cos` and `Math.sin` are uninterpreted function parameters. No property needs a trigonometric fact.
- IEEE-754 doubles (rounding, NaN, infinities) are idealised as `real`.
- The FTC SDK types `Gamepad`, `IMU.Parameters`, `RevHubOrientationOnRobot` and `DcMotorEx` are replaced by records and enumerations.
- The declaration order of the SDK's direction enums is not in the repository. It is assumed to be UP, DOWN, FORWARD, BACKWARD, LEFT, RIGHT, which puts logo up, USB forward first, as the `init` comment says.
- The logo and USB direction enums share one six-value datatype. The source compares them by name (`toString`), so one type loses nothing.
- The SDK defaults are assumed: motors start with FORWARD direction and power 0 before the first `loop`.
- Object identity and aliasing are not modelled. For example, `activeDebugMotor` is a motor name, not a reference.
- A B press in DIRECTION_DEBUGGING with an empty orientation list is excluded by a precondition. The source would throw `ArithmeticException` there, and `init` always builds 24 entries.
- ReflectionUtils.java, the servo and intake wrappers, the hardware utilities and the sample OpModes are not part of this model. They are runtime glue over the SDK and not part of any control path.

Behaviour worth noting, modelled as the code has it:

- `FeedforwardController.calculate` applies the cosine to `targetPos` as passed. There is no degree-to-radian conversion.
- DIRECTION_DEBUGGING runs the selected motor only in the cycle Y is pressed, not while Y is held.
- DIRECTION_DEBUGGING has no exit transition.
- `directionDebugging` only ever sets the power of the selected motor. Entering DIRECTION_DEBUGGING from a drive mode leaves the other three motors at their last driving powers, so the robot keeps moving (`MecanumDrivebase.DebuggingKeepsDrivingPowers`).

=== FILE: aim_pad.dfy ===
/** AIMPad: a double-buffered gamepad. Each `update` shifts the latest
    snapshot into `previous`, and every button, trigger and stick is read as
    an edge (pressed, released or held) between the two snapshots. */
module Gamepad {

  /** The part of the SDK's Gamepad that AIMPad reads: 14 buttons, two
      triggers and two two-axis sticks. */
  datatype Snapshot = Snapshot(
    a: bool, b: bool, x: bool, y: bool,
    dpadUp: bool, dpadDown: bool, dpadLeft: bool, dpadRight: bool,
    leftBumper: bool, rightBumper: bool,
    leftStickButton: bool, rightStickButton: bool,
    start: bool, back: bool,
    leftTrigger: real, rightTrigger: real,
    leftStickX: real, leftStickY: real,
    rightStickX: real, rightStickY: real)

  /** A freshly constructed Gamepad: nothing pressed, every axis at 0. */
  const Neutral: Snapshot := Snapshot(false, false, false, false,
                                      false, false, false, false,
                                      false, false, false, false,
                                      false, false,
                                      0.0, 0.0, 0.0, 0.0, 0.0, 0.0)

  /** Every input AIMPad reports edges for: the 14 buttons, the two triggers
      and the movement of each stick. */
  datatype Input =
    | A | B | X | Y
    | DPadUp | DPadDown | DPadLeft | DPadRight
    | LeftBumper | RightBumper
    | LeftStickButton | RightStickButton
    | Start | Back
    | LeftTrigger | RightTrigger
    | LeftStickMovement | RightStickMovement

  /** Whether an input counts as down in one snapshot: a button when it is
      set, a trigger when its value is above 0, a stick when either axis is
      off 0. Only a snapshot other than the neutral one has anything down. */
  predicate IsDown(g: Snapshot, i: Input)
    ensures IsDown(g, i) ==> g != Neutral
  {
    match i
    case A => g.a
    case B => g.b
    case X => g.x
    case Y => g.y
    case DPadUp => g.dpadUp
    case DPadDown => g.dpadDown
    case DPadLeft => g.dpadLeft
    case DPadRight => g.dpadRight
    case LeftBumper => g.leftBumper
    case RightBumper => g.rightBumper
    case LeftStickButton => g.leftStickButton
    case RightStickButton => g.rightStickButton
    case Start => g.start
    case Back => g.back
    case LeftTrigger => g.leftTrigger > 0.0
    case RightTrigger => g.rightTrigger > 0.0
    case LeftStickMovement => g.leftStickX != 0.0 || g.leftStickY != 0.0
    case RightStickMovement => g.rightStickX != 0.0 || g.rightStickY != 0.0
  }

  /** A trigger is down exactly when its value is strictly positive, and a
      stick is engaged exactly when it is off centre on some axis. */
  lemma AnalogInputsDown(g: Snapshot)
    ensures IsDown(g, LeftTrigger) <==> g.leftTrigger > 0.0
    ensures IsDown(g, RightTrigger) <==> g.rightTrigger > 0.0
    ensures !IsDown(g, LeftStickMovement) <==> g.leftStickX == 0.0 && g.leftStickY == 0.0
    ensures !IsDown(g, RightStickMovement) <==> g.rightStickX == 0.0 && g.rightStickY == 0.0
  {
  }

  /** Nothing is down in a neutral snapshot. */
  lemma NeutralHasNothingDown(i: Input)
    ensures !IsDown(Neutral, i)
  {
  }

  /** The two buffered snapshots. */
  datatype AimPad = AimPad(current: Snapshot, previous: Snapshot)

  /** The constructor ignores the gamepad it is given: both snapshots start neutral. */
  function Init(gamepad: Snapshot): (p: AimPad)
    ensures p.current == Neutral && p.previous == Neutral
  {
    AimPad(Neutral, Neutral)
  }

  /** `update(gamepad)`: the old current snapshot becomes the previous one
      and the given snapshot becomes current. */
  function Update(p: AimPad, gamepad: Snapshot): (r: AimPad)
    ensures r.previous == p.current
    ensures r.current == gamepad
  {
    AimPad(gamepad, p.current)
  }

  /** The three edge helpers on one input's current and previous state.
      Held means down and unchanged since the previous snapshot. */
  predicate IsButtonHeld(current: bool, previous: bool)
    ensures IsButtonHeld(current, previous) ==> current == previous
    ensures current == previous ==> (IsButtonHeld(current, previous) <==> current)
  {
    current && previous
  }

  /** A press is an input down now that is not being held. */
  predicate IsButtonPressed(current: bool, previous: bool)
    ensures IsButtonPressed(current, previous) <==> current && !IsButtonHeld(current, previous)
  {
    current && !previous
  }

  /** A release is a press seen backwards in time. */
  predicate IsButtonReleased(current: bool, previous: bool)
    ensures IsButtonReleased(current, previous) <==> IsButtonPressed(previous, current)
  {
    !current && previous
  }

  datatype Edge = Pressed | Released | Held

  /** The per-input queries: `isAPressed`, `isLeftTriggerReleased`,
      `isRightStickMovementHeld` and so on (stick "engaged" is the pressed edge).
      An edge needs the input down in one of the two snapshots, and two equal
      snapshots report nothing but held. */
  predicate Is(p: AimPad, e: Edge, i: Input)
    ensures Is(p, e, i) ==> IsDown(p.current, i) || IsDown(p.previous, i)
    ensures p.current == p.previous && Is(p, e, i) ==> e == Held
  {
    var current, previous := IsDown(p.current, i), IsDown(p.previous, i);
    match e
    case Pressed => IsButtonPressed(current, previous)
    case Released => IsButtonReleased(current, previous)
    case Held => IsButtonHeld(current, previous)
  }

  /** The edge of each input agrees with its definition on the two snapshots,
      at most one edge holds, and the edges recover both snapshots: the
      input is down now iff pressed or held, and was down iff released or held. */
  lemma EdgeTable(p: AimPad, i: Input)
    ensures Is(p, Pressed, i) <==> IsDown(p.current, i) && !IsDown(p.previous, i)
    ensures Is(p, Released, i) <==> !IsDown(p.current, i) && IsDown(p.previous, i)
    ensures Is(p, Held, i) <==> IsDown(p.current, i) && IsDown(p.previous, i)
    ensures !(Is(p, Pressed, i) && Is(p, Released, i))
    ensures !(Is(p, Pressed, i) && Is(p, Held, i))
    ensures !(Is(p, Released, i) && Is(p, Held, i))
    ensures IsDown(p.current, i) <==> Is(p, Pressed, i) || Is(p, Held, i)
    ensures IsDown(p.previous, i) <==> Is(p, Released, i) || Is(p, Held, i)
  {
  }

  /** Before any update no edge of any input is reported. */
  lemma NoEdgesBeforeUpdate(gamepad: Snapshot, e: Edge, i: Input)
    ensures !Is(Init(gamepad), e, i)
  {
    NeutralHasNothingDown(i);
  }

  /** Feeding an input up, down, down, up through four updates of a new pad
      reads as nothing, pressed, held, released. */
  lemma PressHoldReleaseSequence(gamepad: Snapshot, g1: Snapshot, g2: Snapshot,
                                 g3: Snapshot, g4: Snapshot, i: Input)
    requires !IsDown(g1, i) && IsDown(g2, i) && IsDown(g3, i) && !IsDown(g4, i)
    ensures var p1 := Update(Init(gamepad), g1);
            !Is(p1, Pressed, i) && !Is(p1, Released, i) && !Is(p1, Held, i)
    ensures var p2 := Update(Update(Init(gamepad), g1), g2);
            Is(p2, Pressed, i) && !Is(p2, Released, i) && !Is(p2, Held, i)
    ensures var p3 := Update(Update(Update(Init(gamepad), g1), g2), g3);
            !Is(p3, Pressed, i) && !Is(p3, Released, i) && Is(p3, Held, i)
    ensures var p4 := Update(Update(Update(Update(Init(gamepad), g1), g2), g3), g4);
            !Is(p4, Pressed, i) && Is(p4, Released, i) && !Is(p4, Held, i)
  {
    var p1 := Update(Init(gamepad), g1);
    var p2 := Update(p1, g2);
    var p3 := Update(p2, g3);
    var p4 := Update(p3, g4);
    NeutralHasNothingDown(i);
    EdgeTable(p1, i);
    EdgeTable(p2, i);
    EdgeTable(p3, i);
    EdgeTable(p4, i);
  }

  /** The same snapshot twice in a row reports no pressed or released edge;
      exactly the inputs down in it read as held. */
  lemma RepeatedSnapshotIsSteady(p: AimPad, g: Snapshot, i: Input)
    ensures !Is(Update(Update(p, g), g), Pressed, i)
    ensures !Is(Update(Update(p, g), g), Released, i)
    ensures Is(Update(Update(p, g), g), Held, i) <==> IsDown(g, i)
  {
  }

  /** The groups the `isAny*` queries range over. */
  const DPad: set<Input> := {DPadUp, DPadDown, DPadLeft, DPadRight}
  const Bumpers: set<Input> := {LeftBumper, RightBumper}
  const Triggers: set<Input> := {LeftTrigger, RightTrigger}

  /** `isAnyDPadPressed` / `Released` / `Held`. */
  predicate AnyDPad(p: AimPad, e: Edge)
    ensures AnyDPad(p, e) <==> exists i :: i in DPad && Is(p, e, i)
  {
    Is(p, e, DPadUp) || Is(p, e, DPadDown) || Is(p, e, DPadLeft) || Is(p, e, DPadRight)
  }

  /** `isAnyBumperPressed` / `Released` / `Held`. */
  predicate AnyBumper(p: AimPad, e: Edge)
    ensures AnyBumper(p, e) <==> exists i :: i in Bumpers && Is(p, e, i)
  {
    Is(p, e, LeftBumper) || Is(p, e, RightBumper)
  }

  /** `isAnyTriggerPressed` / `Released` / `Held`. */
  predicate AnyTrigger(p: AimPad, e: Edge)
    ensures AnyTrigger(p, e) <==> exists i :: i in Triggers && Is(p, e, i)
  {
    Is(p, e, LeftTrigger) || Is(p, e, RightTrigger)
  }

  /** `isAnyButtonPressed` / `Released` / `Held`: the OR of the 13 queries the
      source lists, which between them cover every one of the 18 inputs,
      triggers and stick movement included. */
  predicate AnyButton(p: AimPad, e: Edge)
    ensures AnyButton(p, e) <==> exists i: Input :: Is(p, e, i)
  {
    EveryInputListed(p, e);
    Is(p, e, A) || Is(p, e, B) || Is(p, e, X) || Is(p, e, Y)
    || AnyBumper(p, e) || AnyDPad(p, e)
    || Is(p, e, LeftStickButton) || Is(p, e, RightStickButton)
    || Is(p, e, Start) || Is(p, e, Back)
    || AnyTrigger(p, e)
    || Is(p, e, LeftStickMovement) || Is(p, e, RightStickMovement)
  }

  /** Each of the 18 inputs is among the 13 queries of `isAnyButton*`. */
  lemma EveryInputListed(p: AimPad, e: Edge)
    ensures (exists i: Input :: Is(p, e, i)) ==>
              Is(p, e, A) || Is(p, e, B) || Is(p, e, X) || Is(p, e, Y)
              || AnyBumper(p, e) || AnyDPad(p, e)
              || Is(p, e, LeftStickButton) || Is(p, e, RightStickButton)
              || Is(p, e, Start) || Is(p, e, Back)
              || AnyTrigger(p, e)
              || Is(p, e, LeftStickMovement) || Is(p, e, RightStickMovement)
  {
    if i: Input :| Is(p, e, i) {
      match i
      case DPadUp =>
      case DPadDown =>
      case DPadLeft =>
      case DPadRight =>
      case LeftBumper =>
      case RightBumper =>
      case LeftTrigger =>
      case RightTrigger =>
      case _ =>
    }
  }

  /** The getters read the current snapshot, or hand out either snapshot whole. */
  function CurrentState(p: AimPad): Snapshot { p.current }
  function PreviousState(p: AimPad): Snapshot { p.previous }
  function LeftTriggerValue(p: AimPad): real { p.current.leftTrigger }
  function RightTriggerValue(p: AimPad): real { p.current.rightTrigger }
  function LeftStickX(p: AimPad): real { p.current.leftStickX }
  function LeftStickY(p: AimPad): real { p.current.leftStickY }
  function RightStickX(p: AimPad): real { p.current.rightStickX }
  function RightStickY(p: AimPad): real { p.current.rightStickY }

  /** After an update every value getter reads the snapshot just given, and
      the previous-state getter returns the snapshot given the time before. */
  lemma GettersReadLatestSnapshot(p: AimPad, g: Snapshot)
    ensures CurrentState(Update(p, g)) == g
    ensures PreviousState(Update(p, g)) == CurrentState(p)
    ensures LeftTriggerValue(Update(p, g)) == g.leftTrigger
    ensures RightTriggerValue(Update(p, g)) == g.rightTrigger
    ensures LeftStickX(Update(p, g)) == g.leftStickX && LeftStickY(Update(p, g)) == g.leftStickY
    ensures RightStickX(Update(p, g)) == g.rightStickX && RightStickY(Update(p, g)) == g.rightStickY
  {
  }
}

=== FILE: control_system.dfy ===
/** SimpleControlSystem: a PID controller on a low-pass-filtered measurement,
    plus a feedforward term on the target, with a settable target. */
module ControlSystem {
  import LowPass
  import Feedforward
  import Pid

  /** The three parts fixed at construction, and the current target. The
      measurement filter is a field of its own, separate from the PID's
      derivative filter. */
  datatype SimpleControlSystem = SimpleControlSystem(pid: Pid.Pid,
                                                     feedforward: Feedforward.Feedforward,
                                                     filter: LowPass.LowPassFilter,
                                                     target: real)

  /** The system after one `update`, and the value that call returned. */
  datatype SystemStep = SystemStep(system: SimpleControlSystem, output: real)

  /** A new system: the parts as given, and the target at 0 until it is set. */
  function Init(pid: Pid.Pid, feedforward: Feedforward.Feedforward,
                filter: LowPass.LowPassFilter): (s: SimpleControlSystem)
    ensures s.pid == pid && s.feedforward == feedforward && s.filter == filter
    ensures s.target == 0.0
  {
    SimpleControlSystem(pid, feedforward, filter, 0.0)
  }

  /** `update(state, referenceVelocity, referenceAcceleration)` with the
      PID's elapsed time `dt` given: the measurement is filtered once, the PID
      compares the target with the filtered measurement, and the feedforward
      is evaluated at the target. */
  function Update(s: SimpleControlSystem, cos: real -> real, state: real,
                  referenceVelocity: real, referenceAcceleration: real, dt: real): (r: SystemStep)
    requires dt > 0.0
    ensures r.system.target == s.target
    ensures r.system.feedforward == s.feedforward
    // the measurement filter advances by exactly one call on the raw state
    ensures r.system.filter == LowPass.Filter(s.filter, state).filter
    // the PID saw the filtered measurement: its remembered error is the
    // target minus what the measurement filter now holds
    ensures r.system.pid.previousError == s.target - r.system.filter.prevOutput
    ensures r.system.pid.gains == s.pid.gains
    // the PID advanced by one call on the target and the filtered measurement
    ensures r.system.pid == Pid.Calculate(s.pid, s.target, r.system.filter.prevOutput, dt).pid
    ensures r.output
         == Pid.Calculate(s.pid, s.target, r.system.filter.prevOutput, dt).output
          + Feedforward.Calculate(s.feedforward, cos, s.target, referenceVelocity, referenceAcceleration)
  {
    var measured := LowPass.Filter(s.filter, state);
    var pidStep := Pid.Calculate(s.pid, s.target, measured.output, dt);
    var feedforwardOutput := Feedforward.Calculate(s.feedforward, cos, s.target,
                                                   referenceVelocity, referenceAcceleration);
    SystemStep(s.(pid := pidStep.pid, filter := measured.filter), pidStep.output + feedforwardOutput)
  }

  /** `update(state)`: no reference velocity or acceleration, so only the
      cosine and gravity terms of the feedforward remain. */
  function UpdateState(s: SimpleControlSystem, cos: real -> real, state: real, dt: real): (r: SystemStep)
    requires dt > 0.0
    ensures r.system.target == s.target
    ensures r.system.filter == LowPass.Filter(s.filter, state).filter
    ensures r.output
         == Pid.Calculate(s.pid, s.target, r.system.filter.prevOutput, dt).output
          + cos(s.target) * s.feedforward.kCos + s.feedforward.kG
  {
    Update(s, cos, state, 0.0, 0.0, dt)
  }

  /** `update(state, referenceVelocity)`: no reference acceleration, so the
      kA term of the feedforward vanishes. */
  function UpdateVelocity(s: SimpleControlSystem, cos: real -> real, state: real,
                          referenceVelocity: real, dt: real): (r: SystemStep)
    requires dt > 0.0
    ensures r.system.target == s.target
    ensures r.system.filter == LowPass.Filter(s.filter, state).filter
    ensures r.output
         == Pid.Calculate(s.pid, s.target, r.system.filter.prevOutput, dt).output
          + s.feedforward.kV * referenceVelocity
          + cos(s.target) * s.feedforward.kCos + s.feedforward.kG
  {
    Update(s, cos, state, referenceVelocity, 0.0, dt)
  }

  /** The one- and two-argument overloads are the three-argument one with the
      missing references set to 0. */
  lemma OverloadsDefaultToZero(s: SimpleControlSystem, cos: real -> real, state: real, v: real, dt: real)
    requires dt > 0.0
    ensures UpdateState(s, cos, state, dt) == Update(s, cos, state, 0.0, 0.0, dt)
    ensures UpdateVelocity(s, cos, state, v, dt) == Update(s, cos, state, v, 0.0, dt)
    ensures UpdateState(s, cos, state, dt) == UpdateVelocity(s, cos, state, 0.0, dt)
  {
  }

  /** `setTarget(t)`: only the target changes. */
  function SetTarget(s: SimpleControlSystem, target: real): (r: SimpleControlSystem)
    ensures r.target == target
    ensures r.pid == s.pid && r.feedforward == s.feedforward && r.filter == s.filter
  {
    s.(target := target)
  }

  /** The target set is the one the next update steers to, and update never
      changes the target again. */
  lemma SetTargetThenUpdate(s: SimpleControlSystem, cos: real -> real, target: real,
                            state: real, v: real, a: real, dt: real)
    requires dt > 0.0
    ensures var r := Update(SetTarget(s, target), cos, state, v, a, dt);
            r.system.target == target
            && r.system.pid.previousError == target - LowPass.Filter(s.filter, state).output
  {
  }

  /** With a measurement filter of gain 0 the PID sees the raw measurement. */
  lemma TransparentFilterPassesState(s: SimpleControlSystem, cos: real -> real,
                                     state: real, v: real, a: real, dt: real)
    requires dt > 0.0
    requires s.filter.gain == 0.0
    ensures Update(s, cos, state, v, a, dt).system.pid
         == Pid.Calculate(s.pid, s.target, state, dt).pid
    ensures Update(s, cos, state, v, a, dt).output
         == Pid.Calculate(s.pid, s.target, state, dt).output
          + Feedforward.Calculate(s.feedforward, cos, s.target, v, a)
  {
    LowPass.ZeroGainPassesInput(s.filter, state);
  }

  /** End to end: a P-only PID, a pass-through filter and an all-zero
      feedforward give kP * (target - state). */
  lemma ProportionalSystem(s: SimpleControlSystem, cos: real -> real, state: real, dt: real)
    requires dt > 0.0
    requires s.pid.gains.kI == 0.0 && s.pid.gains.kD == 0.0
    requires s.filter.gain == 0.0
    requires s.feedforward == Feedforward.Feedforward(0.0, 0.0, s.feedforward.kStatic, 0.0, 0.0)
    ensures UpdateState(s, cos, state, dt).output == s.pid.gains.kP * (s.target - state)
  {
    TransparentFilterPassesState(s, cos, state, 0.0, 0.0, dt);
    Pid.ProportionalOnly(s.pid, s.target, state, dt);
  }
}

=== FILE: feedforward.dfy ===
/** FeedforwardController: a stateless open-loop term computed from the target
    position and the reference velocity and acceleration, with cosine
    (arm) and constant (gravity) compensation. */
module Feedforward {

  /** The five gains fixed at construction. `kStatic` is stored but unused. */
  datatype Feedforward = Feedforward(kV: real, kA: real, kStatic: real, kCos: real, kG: real)

  /** `calculate(targetPos, referenceVelocity, referenceAcceleration)`. The
      cosine is the caller's (Math.cos), applied to `targetPos` as passed.
      Holding still (no reference velocity or acceleration) leaves only the
      arm and gravity terms; without arm compensation the target does not
      matter. */
  function Calculate(ff: Feedforward, cos: real -> real, targetPos: real,
                     referenceVelocity: real, referenceAcceleration: real): (r: real)
    ensures referenceVelocity == 0.0 && referenceAcceleration == 0.0 ==>
              r == cos(targetPos) * ff.kCos + ff.kG
    ensures ff.kCos == 0.0 ==>
              r == ff.kV * referenceVelocity + ff.kA * referenceAcceleration + ff.kG
  {
    ff.kV * referenceVelocity + ff.kA * referenceAcceleration + cos(targetPos) * ff.kCos + ff.kG
  }

  /** The static-friction gain never reaches the output. */
  lemma StaticGainUnused(ff: Feedforward, kStatic: real, cos: real -> real,
                         targetPos: real, v: real, a: real)
    ensures Calculate(ff.(kStatic := kStatic), cos, targetPos, v, a) == Calculate(ff, cos, targetPos, v, a)
  {
  }

  /** The cosine is sampled at `targetPos` itself and nowhere else: two cosine
      functions that agree there give the same output, so no unit conversion
      (such as degrees to radians) happens before the cosine. */
  lemma CosineOfRawTarget(ff: Feedforward, cos1: real -> real, cos2: real -> real,
                          targetPos: real, v: real, a: real)
    requires cos1(targetPos) == cos2(targetPos)
    ensures Calculate(ff, cos1, targetPos, v, a) == Calculate(ff, cos2, targetPos, v, a)
  {
  }

  /** Without cosine compensation the output is affine in velocity and
      acceleration: kV * v + kA * a + kG, whatever the target. */
  lemma AffineWithoutCosine(ff: Feedforward, cos: real -> real, targetPos: real, v: real, a: real)
    requires ff.kCos == 0.0
    ensures Calculate(ff, cos, targetPos, v, a) == ff.kV * v + ff.kA * a + ff.kG
  {
  }

  /** The output is additive in the reference velocity and acceleration: the
      change caused by adding (dv, da) is kV * dv + kA * da, whatever the rest. */
  lemma ReferenceTermsAreLinear(ff: Feedforward, cos: real -> real, targetPos: real,
                                v: real, a: real, dv: real, da: real)
    ensures Calculate(ff, cos, targetPos, v + dv, a + da) - Calculate(ff, cos, targetPos, v, a)
         == ff.kV * dv + ff.kA * da
  {
  }
}

=== FILE: imu_orientation.dfy ===
/** The list of IMU mounting orientations MecanumDrivebase cycles through
    while debugging: every (logo, USB) facing pair that names two different,
    non-opposite directions, in the order the SDK enumerates them. */
module ImuOrientation {

  /** The six facing directions shared by the SDK's LogoFacingDirection and
      UsbFacingDirection, in declaration order. */
  datatype FacingDirection = Up | Down | Forward | Backward | Left | Right

  /** `values()` of either direction enum. */
  const Directions: seq<FacingDirection> := [Up, Down, Forward, Backward, Left, Right]

  /** A hub orientation: where the logo faces and where the USB ports face. */
  datatype Orientation = Orientation(logo: FacingDirection, usb: FacingDirection)

  /** `isOpposite(logo, usb)`: the six pairs of opposite faces, listed one by one. */
  predicate IsOpposite(logo: FacingDirection, usb: FacingDirection)
    ensures IsOpposite(logo, usb) ==> logo != usb
  {
    || (logo == Up && usb == Down)
    || (logo == Down && usb == Up)
    || (logo == Left && usb == Right)
    || (logo == Right && usb == Left)
    || (logo == Forward && usb == Backward)
    || (logo == Backward && usb == Forward)
  }

  /** The face opposite a face. */
  function Opposite(d: FacingDirection): (r: FacingDirection)
    ensures r != d
  {
    match d
    case Up => Down
    case Down => Up
    case Forward => Backward
    case Backward => Forward
    case Left => Right
    case Right => Left
  }

  /** The listed pairs are exactly the faces and their opposites, so the
      relation is symmetric and never relates a face to itself. */
  lemma IsOppositeMeansOpposite(logo: FacingDirection, usb: FacingDirection)
    ensures IsOpposite(logo, usb) <==> usb == Opposite(logo)
    ensures IsOpposite(logo, usb) <==> IsOpposite(usb, logo)
    ensures !IsOpposite(logo, logo)
    ensures Opposite(Opposite(logo)) == logo
  {
  }

  lemma EveryDirectionListed(d: FacingDirection)
    ensures d in Directions
  {
  }

  /** An orientation the list keeps: the two names differ and are not opposite. */
  predicate IsAdmissible(o: Orientation)
    ensures IsAdmissible(o) <==> o.usb != o.logo && o.usb != Opposite(o.logo)
  {
    o.logo != o.usb && !IsOpposite(o.logo, o.usb)
  }

  /** The orientation (logo, usb) as a list of at most one element: itself
      when admissible, nothing otherwise. */
  function Cell(logo: FacingDirection, usb: FacingDirection): seq<Orientation>
  {
    if IsAdmissible(Orientation(logo, usb)) then [Orientation(logo, usb)] else []
  }

  /** The admissible orientations with the given logo direction, one per USB
      direction of `usbs`, in the order of `usbs`. */
  function Row(logo: FacingDirection, usbs: seq<FacingDirection>): seq<Orientation>
  {
    if |usbs| == 0 then [] else Cell(logo, usbs[0]) + Row(logo, usbs[1..])
  }

  /** The rows for every logo direction of `logos`, one after another. */
  function Table(logos: seq<FacingDirection>, usbs: seq<FacingDirection>): seq<Orientation>
  {
    if |logos| == 0 then [] else Row(logos[0], usbs) + Table(logos[1..], usbs)
  }

  /** A row grows at its end as the USB directions grow at theirs. */
  lemma {:induction false} RowSnoc(logo: FacingDirection, usbs: seq<FacingDirection>, usb: FacingDirection)
    ensures Row(logo, usbs + [usb]) == Row(logo, usbs) + Cell(logo, usb)
  {
    if |usbs| > 0 {
      assert (usbs + [usb])[1..] == usbs[1..] + [usb];
      RowSnoc(logo, usbs[1..], usb);
    }
  }

  /** A table grows at its end, one row at a time, as the logo directions grow. */
  lemma {:induction false} TableSnoc(logos: seq<FacingDirection>, usbs: seq<FacingDirection>, logo: FacingDirection)
    ensures Table(logos + [logo], usbs) == Table(logos, usbs) + Row(logo, usbs)
  {
    if |logos| > 0 {
      assert (logos + [logo])[1..] == logos[1..] + [logo];
      TableSnoc(logos[1..], usbs, logo);
    }
  }

  lemma {:induction false} RowMembers(logo: FacingDirection, usbs: seq<FacingDirection>, o: Orientation)
    ensures o in Row(logo, usbs) <==> o.logo == logo && o.usb in usbs && IsAdmissible(o)
  {
    if |usbs| > 0 {
      RowMembers(logo, usbs[1..], o);
      assert usbs == [usbs[0]] + usbs[1..];
    }
  }

  lemma {:induction false} TableMembers(logos: seq<FacingDirection>, usbs: seq<FacingDirection>, o: Orientation)
    ensures o in Table(logos, usbs) <==> o.logo in logos && o.usb in usbs && IsAdmissible(o)
  {
    if |logos| > 0 {
      TableMembers(logos[1..], usbs, o);
      RowMembers(logos[0], usbs, o);
      assert logos == [logos[0]] + logos[1..];
    }
  }

  /** The row of one logo direction over all USB directions, written out:
      the four that are neither the logo direction nor its opposite, in
      enumeration order. */
  function ExpectedRow(logo: FacingDirection): seq<Orientation>
  {
    match logo
    case Up => [Orientation(Up, Forward), Orientation(Up, Backward), Orientation(Up, Left), Orientation(Up, Right)]
    case Down => [Orientation(Down, Forward), Orientation(Down, Backward), Orientation(Down, Left), Orientation(Down, Right)]
    case Forward => [Orientation(Forward, Up), Orientation(Forward, Down), Orientation(Forward, Left), Orientation(Forward, Right)]
    case Backward => [Orientation(Backward, Up), Orientation(Backward, Down), Orientation(Backward, Left), Orientation(Backward, Right)]
    case Left => [Orientation(Left, Up), Orientation(Left, Down), Orientation(Left, Forward), Orientation(Left, Backward)]
    case Right => [Orientation(Right, Up), Orientation(Right, Down), Orientation(Right, Forward), Orientation(Right, Backward)]
  }

  // The row of each logo direction over all directions, written out.

  lemma RowOfUp()
    ensures Row(Up, Directions) == ExpectedRow(Up)
  {
  }

  lemma RowOfDown()
    ensures Row(Down, Directions) == ExpectedRow(Down)
  {
  }

  lemma RowOfForward()
    ensures Row(Forward, Directions) == ExpectedRow(Forward)
  {
  }

  lemma RowOfBackward()
    ensures Row(Backward, Directions) == ExpectedRow(Backward)
  {
  }

  lemma RowOfLeft()
    ensures Row(Left, Directions) == ExpectedRow(Left)
  {
  }

  lemma RowOfRight()
    ensures Row(Right, Directions) == ExpectedRow(Right)
  {
  }

  /** The table over all directions: 24 orientations, logo-major. */
  lemma TableOfAllDirections()
    ensures Table(Directions, Directions)
         == ExpectedRow(Up) + (ExpectedRow(Down) + (ExpectedRow(Forward)
          + (ExpectedRow(Backward) + (ExpectedRow(Left) + ExpectedRow(Right)))))
    ensures |Table(Directions, Directions)| == 24
    ensures Table(Directions, Directions)[0] == Orientation(Up, Forward)
  {
    RowOfUp();
    RowOfDown();
    RowOfForward();
    RowOfBackward();
    RowOfLeft();
    RowOfRight();
    assert Directions[1..][1..][1..][1..][1..][1..] == [];
  }

  /** The two nested loops of `getAllIMUParameters`, over any enumeration of
      logo and USB directions: the admissible pairs in the order met. */
  method CollectAdmissible(logos: seq<FacingDirection>, usbs: seq<FacingDirection>)
    returns (list: seq<Orientation>)
    ensures list == Table(logos, usbs)
    ensures forall o :: o in list <==> o.logo in logos && o.usb in usbs && IsAdmissible(o)
  {
    list := [];
    var i := 0;
    while i < |logos|
      invariant 0 <= i <= |logos|
      invariant list == Table(logos[..i], usbs)
    {
      var logo := logos[i];
      var j := 0;
      while j < |usbs|
        invariant 0 <= j <= |usbs|
        invariant list == Table(logos[..i], usbs) + Row(logo, usbs[..j])
      {
        var usb := usbs[j];
        if logo != usb && !IsOpposite(logo, usb) {
          list := list + [Orientation(logo, usb)];
        }
        assert usbs[..j + 1] == usbs[..j] + [usb];
        RowSnoc(logo, usbs[..j], usb);
        j := j + 1;
      }
      assert usbs[..j] == usbs;
      assert logos[..i + 1] == logos[..i] + [logo];
      TableSnoc(logos[..i], usbs, logo);
      i := i + 1;
    }
    assert logos[..i] == logos;
    forall o ensures o in list <==> o.logo in logos && o.usb in usbs && IsAdmissible(o) {
      TableMembers(logos, usbs, o);
    }
  }

  /** `getAllIMUParameters()`: exactly the admissible orientations, 24 of
      them, starting with logo up, USB forward. */
  method GetAllImuParameters() returns (list: seq<Orientation>)
    ensures list == Table(Directions, Directions)
    ensures forall o :: o in list <==> IsAdmissible(o)
    ensures |list| == 24
    ensures list[0] == Orientation(Up, Forward)
  {
    list := CollectAdmissible(Directions, Directions);
    TableOfAllDirections();
    forall o ensures o in list <==> IsAdmissible(o) {
      EveryDirectionListed(o.logo);
      EveryDirectionListed(o.usb);
    }
  }
}

=== FILE: low_pass_filter.dfy ===
/** LowPassFilter: a one-pole exponential smoother of a scalar signal.
    The filter keeps one number, the output it last returned. */
module LowPass {
  import opened RealMath

  /** `gain` is fixed at construction; `prevOutput` is the last value returned. */
  datatype LowPassFilter = LowPassFilter(gain: real, prevOutput: real)

  /** The filter after one call, and the value that call returned. */
  datatype Filtered = Filtered(filter: LowPassFilter, output: real)

  /** A new filter: any gain is accepted, and the remembered output starts at 0. */
  function Init(gain: real): (f: LowPassFilter)
    ensures f.gain == gain
    ensures f.prevOutput == 0.0
  {
    LowPassFilter(gain, 0.0)
  }

  /** One call of `filter(input)`: the output is the gain-weighted mix of the
      previous output and the input, and it becomes the new previous output. */
  function Filter(f: LowPassFilter, input: real): (r: Filtered)
    ensures r.filter.gain == f.gain
    ensures r.filter.prevOutput == r.output
    // the gap to the input is the previous gap scaled by the gain
    ensures r.output - input == f.gain * (f.prevOutput - input)
  {
    var output := f.gain * f.prevOutput + (1.0 - f.gain) * input;
    Filtered(f.(prevOutput := output), output)
  }

  /** Since the state starts at 0, the first output is (1 - gain) * input. */
  lemma FirstOutput(gain: real, input: real)
    ensures Filter(Init(gain), input).output == (1.0 - gain) * input
  {
  }

  /** With gain 0 the filter passes its input through unchanged. */
  lemma ZeroGainPassesInput(f: LowPassFilter, input: real)
    requires f.gain == 0.0
    ensures Filter(f, input).output == input
  {
  }

  /** With a gain in [0, 1] the output lies between the previous output and the input. */
  lemma OutputBetweenPreviousAndInput(f: LowPassFilter, input: real)
    requires 0.0 <= f.gain <= 1.0
    ensures Min(f.prevOutput, input) <= Filter(f, input).output <= Max(f.prevOutput, input)
  {
    ScaledBetween(f.gain, f.prevOutput - input, Filter(f, input).output - input);
  }

  /** For a constant input c and a gain in [0, 1), one call moves the output
      strictly closer to c (unless it is already c) without overshooting it. */
  lemma ConstantInputContracts(f: LowPassFilter, c: real)
    requires 0.0 <= f.gain < 1.0
    ensures f.prevOutput != c ==> Abs(Filter(f, c).output - c) < Abs(f.prevOutput - c)
    ensures f.prevOutput >= c ==> Filter(f, c).output >= c
    ensures f.prevOutput <= c ==> Filter(f, c).output <= c
  {
    ContractionStep(f.gain, f.prevOutput - c, Filter(f, c).output - c);
  }

  /** The filter after `n` calls that all receive the same input `c`. */
  function FilterConstant(f: LowPassFilter, c: real, n: nat): LowPassFilter
  {
    if n == 0 then f else Filter(FilterConstant(f, c, n - 1), c).filter
  }

  /** Closed form: after n calls with constant input c, the distance to c is
      the initial distance scaled by gain^n, and the gain never changes. */
  lemma {:induction false} FilterConstantClosedForm(f: LowPassFilter, c: real, n: nat)
    ensures FilterConstant(f, c, n).gain == f.gain
    ensures FilterConstant(f, c, n).prevOutput - c == Pow(f.gain, n) * (f.prevOutput - c)
  {
    if n > 0 {
      FilterConstantClosedForm(f, c, n - 1);
      MulAssociative(f.gain, Pow(f.gain, n - 1), f.prevOutput - c);
    }
  }

  /** With a gain in [0, 1), repeating a constant input converges monotonically:
      each further call brings the output no farther from c, and the output
      stays on the side of c where it started. */
  lemma {:induction false} FilterConstantMonotone(f: LowPassFilter, c: real, n: nat)
    requires 0.0 <= f.gain < 1.0
    ensures FilterConstant(f, c, n).gain == f.gain
    ensures Abs(FilterConstant(f, c, n + 1).prevOutput - c) <= Abs(FilterConstant(f, c, n).prevOutput - c)
    ensures f.prevOutput >= c ==> FilterConstant(f, c, n).prevOutput >= c
    ensures f.prevOutput <= c ==> FilterConstant(f, c, n).prevOutput <= c
  {
    if n > 0 {
      FilterConstantMonotone(f, c, n - 1);
      ConstantInputContracts(FilterConstant(f, c, n - 1), c);
    }
    var cur := FilterConstant(f, c, n);
    assert FilterConstant(f, c, n + 1) == Filter(cur, c).filter;
    ConstantInputContracts(cur, c);
  }
}

=== FILE: mecanum_drivebase.dfy ===
/** MecanumDrivebase: a three-mode state machine driven once per cycle by
    `loop`. ARCADE and FIELD_CENTRIC drive the four wheels from the sticks;
    DIRECTION_DEBUGGING runs one selected motor at a time, flips its direction
    and cycles through the IMU mounting orientations. Motor powers and
    directions, and each re-initialisation of the IMU, are outputs of the
    model; the robot's heading and the cosine and sine are inputs. */
module MecanumDrivebase {
  import opened MecanumKinematics
  import opened RealMath
  import Gamepad
  import ImuOrientation

  datatype Option<T> = None | Some(value: T)

  datatype DriveMode = Arcade | FieldCentric | DirectionDebugging

  /** `DcMotorSimple.Direction`. */
  datatype MotorDirection = Forward | Reverse

  /** The direction flip of the A button: REVERSE becomes FORWARD and FORWARD
      becomes REVERSE. */
  function Toggle(dir: MotorDirection): (r: MotorDirection)
    ensures r != dir
  {
    match dir
    case Reverse => Forward
    case Forward => Reverse
  }

  /** The drivebase between two calls of `loop`. `powers` and `directions`
      are what was last commanded to each motor; `imuIndex` picks the IMU
      orientation in use from `imuParameters`. */
  datatype Drivebase = Drivebase(yMultiplier: real, xMultiplier: real, rxMultiplier: real,
                                 mode: DriveMode,
                                 activeDebugMotor: Motor,
                                 directions: PerMotor<MotorDirection>,
                                 powers: PerMotor<real>,
                                 imuParameters: seq<ImuOrientation.Orientation>,
                                 imuIndex: nat)

  /** The state every call of `loop` keeps: a non-empty orientation list
      with the index inside it, and every motor power within [-1, 1]. */
  predicate Valid(d: Drivebase)
  {
    && 0 < |d.imuParameters|
    && d.imuIndex < |d.imuParameters|
    && InUnitRange(d.powers)
  }

  /** The constructor followed by `init`: ARCADE mode, the left-side motors
      reversed, the left-front motor selected for debugging, the orientation
      list built and its first entry (logo up, USB forward) handed to the IMU. */
  method Init(yMultiplier: real, xMultiplier: real, rxMultiplier: real)
    returns (d: Drivebase, imuInit: ImuOrientation.Orientation)
    ensures d.yMultiplier == yMultiplier && d.xMultiplier == xMultiplier
    ensures d.rxMultiplier == rxMultiplier
    ensures d.mode == Arcade
    ensures d.activeDebugMotor == LeftFront
    ensures d.directions == PerMotor(Reverse, Forward, Reverse, Forward)
    ensures d.powers == PerMotor(0.0, 0.0, 0.0, 0.0)
    ensures forall o :: o in d.imuParameters <==> ImuOrientation.IsAdmissible(o)
    ensures |d.imuParameters| == 24 && d.imuIndex == 0
    ensures imuInit == d.imuParameters[0] == ImuOrientation.Orientation(ImuOrientation.Up, ImuOrientation.Forward)
    ensures Valid(d)
  {
    var list := ImuOrientation.GetAllImuParameters();
    d := Drivebase(yMultiplier, xMultiplier, rxMultiplier, Arcade, LeftFront,
                   PerMotor(Reverse, Forward, Reverse, Forward),
                   PerMotor(0.0, 0.0, 0.0, 0.0), list, 0);
    InUnitRangeByFields(d.powers);
    imuInit := list[0];
  }

  /** Both bumpers pressed in this cycle: every bumper has a press edge. */
  predicate BumperChord(pad: Gamepad.AimPad)
    ensures BumperChord(pad) <==> forall i :: i in Gamepad.Bumpers ==> Gamepad.Is(pad, Gamepad.Pressed, i)
  {
    Gamepad.Is(pad, Gamepad.Pressed, Gamepad.LeftBumper)
    && Gamepad.Is(pad, Gamepad.Pressed, Gamepad.RightBumper)
  }

  /** The D-pad test of both drive modes, in the source's order: up, right,
      left, down. It holds when some D-pad direction has a press edge. */
  predicate DPadPressed(pad: Gamepad.AimPad)
    ensures DPadPressed(pad) <==> exists i :: i in Gamepad.DPad && Gamepad.Is(pad, Gamepad.Pressed, i)
  {
    || Gamepad.Is(pad, Gamepad.Pressed, Gamepad.DPadUp)
    || Gamepad.Is(pad, Gamepad.Pressed, Gamepad.DPadRight)
    || Gamepad.Is(pad, Gamepad.Pressed, Gamepad.DPadLeft)
    || Gamepad.Is(pad, Gamepad.Pressed, Gamepad.DPadDown)
  }

  /** That test is `isAnyDPadPressed` written out. */
  lemma DPadPressedIsAnyDPad(pad: Gamepad.AimPad)
    ensures DPadPressed(pad) <==> Gamepad.AnyDPad(pad, Gamepad.Pressed)
  {
  }

  /** The motion requested in ARCADE mode: the stick values scaled by the
      multipliers, with the left stick's y negated so that pushing the stick
      forward (which the gamepad reports as a negative y) drives forward. */
  function ArcadeTwist(d: Drivebase, pad: Gamepad.AimPad): (t: Twist)
    ensures d.yMultiplier > 0.0 ==> (t.y > 0.0 <==> Gamepad.LeftStickY(pad) < 0.0)
    ensures d.xMultiplier > 0.0 ==> (t.x > 0.0 <==> Gamepad.LeftStickX(pad) > 0.0)
    ensures d.rxMultiplier > 0.0 ==> (t.rx > 0.0 <==> Gamepad.RightStickX(pad) > 0.0)
  {
    PositiveScaleSigns(d, pad);
    Twist(-Gamepad.LeftStickY(pad) * d.yMultiplier,
          Gamepad.LeftStickX(pad) * d.xMultiplier,
          Gamepad.RightStickX(pad) * d.rxMultiplier)
  }

  lemma PositiveScaleSigns(d: Drivebase, pad: Gamepad.AimPad)
    ensures d.yMultiplier > 0.0 ==> (-Gamepad.LeftStickY(pad) * d.yMultiplier > 0.0 <==> Gamepad.LeftStickY(pad) < 0.0)
    ensures d.xMultiplier > 0.0 ==> (Gamepad.LeftStickX(pad) * d.xMultiplier > 0.0 <==> Gamepad.LeftStickX(pad) > 0.0)
    ensures d.rxMultiplier > 0.0 ==> (Gamepad.RightStickX(pad) * d.rxMultiplier > 0.0 <==> Gamepad.RightStickX(pad) > 0.0)
  {
    if d.yMultiplier > 0.0 {
      PositiveScaleKeepsSign(-Gamepad.LeftStickY(pad), d.yMultiplier);
    }
    if d.xMultiplier > 0.0 {
      PositiveScaleKeepsSign(Gamepad.LeftStickX(pad), d.xMultiplier);
    }
    if d.rxMultiplier > 0.0 {
      PositiveScaleKeepsSign(Gamepad.RightStickX(pad), d.rxMultiplier);
    }
  }

  /** The point (x, y) turned by the angle whose cosine and sine are c and s.
      For a true rotation (c² + s² = 1) turning back by the opposite angle
      recovers the point, and its length is kept. */
  function Rotate(x: real, y: real, c: real, s: real): (v: (real, real))
    ensures c * c + s * s == 1.0 ==> v.0 * c + v.1 * s == x && v.1 * c - v.0 * s == y
    ensures c * c + s * s == 1.0 ==> v.0 * v.0 + v.1 * v.1 == x * x + y * y
  {
    RotateBack(x, y, c, s);
    (x * c - y * s, x * s + y * c)
  }

  lemma RotateBack(x: real, y: real, c: real, s: real)
    ensures (x * c - y * s) * c + (x * s + y * c) * s == x * (c * c + s * s)
    ensures (x * s + y * c) * c - (x * c - y * s) * s == y * (c * c + s * s)
    ensures (x * c - y * s) * (x * c - y * s) + (x * s + y * c) * (x * s + y * c)
            == (x * x + y * y) * (c * c + s * s)
  {
  }

  /** The motion requested in FIELD_CENTRIC mode: the left stick, taken as a
      request relative to the field, is turned by minus the heading into the
      robot's frame and only then scaled by the x and y multipliers; the
      turn is not rotated. With unit multipliers and a true rotation,
      turning the request back by the heading gives the stick again. */
  function FieldCentricTwist(d: Drivebase, pad: Gamepad.AimPad, heading: real,
                             cos: real -> real, sin: real -> real): (t: Twist)
    ensures var v := Rotate(Gamepad.LeftStickX(pad), -Gamepad.LeftStickY(pad), cos(-heading), sin(-heading));
            t.x == v.0 * d.xMultiplier && t.y == v.1 * d.yMultiplier
    ensures t.rx == Gamepad.RightStickX(pad) * d.rxMultiplier
    ensures d.xMultiplier == 1.0 && d.yMultiplier == 1.0
            && cos(-heading) * cos(-heading) + sin(-heading) * sin(-heading) == 1.0
            ==> t.x * cos(-heading) + t.y * sin(-heading) == Gamepad.LeftStickX(pad)
                && t.y * cos(-heading) - t.x * sin(-heading) == -Gamepad.LeftStickY(pad)
  {
    var y := -Gamepad.LeftStickY(pad);
    var x := Gamepad.LeftStickX(pad);
    var rx := Gamepad.RightStickX(pad) * d.rxMultiplier;
    var v := Rotate(x, y, cos(-heading), sin(-heading));
    Twist(v.1 * d.yMultiplier, v.0 * d.xMultiplier, rx)
  }

  /** `arcadeDrive`: the mode test first, then the wheels are driven from
      the arcade motion. Only the mode and the powers change, and every power
      is within [-1, 1]. */
  function ArcadeDrive(d: Drivebase, pad: Gamepad.AimPad): (r: Drivebase)
    ensures r == d.(mode := r.mode, powers := r.powers)
    ensures r.powers == WheelPowers(ArcadeTwist(d, pad))
    ensures InUnitRange(r.powers)
    ensures r.mode == FieldCentric || r.mode == DirectionDebugging || r.mode == d.mode
  {
    var mode := if BumperChord(pad) then FieldCentric
                else if DPadPressed(pad) then DirectionDebugging
                else d.mode;
    d.(mode := mode, powers := WheelPowers(ArcadeTwist(d, pad)))
  }

  /** `fieldCentricDrive`: the mode test first, then the wheels are driven
      from the field-centric motion. Only the mode and the powers change,
      and every power is within [-1, 1] for any heading, cosine and sine. */
  function FieldCentricDrive(d: Drivebase, pad: Gamepad.AimPad, heading: real,
                             cos: real -> real, sin: real -> real): (r: Drivebase)
    ensures r == d.(mode := r.mode, powers := r.powers)
    ensures r.powers == WheelPowers(FieldCentricTwist(d, pad, heading, cos, sin))
    ensures InUnitRange(r.powers)
    ensures r.mode == Arcade || r.mode == DirectionDebugging || r.mode == d.mode
  {
    var mode := if BumperChord(pad) then Arcade
                else if DPadPressed(pad) then DirectionDebugging
                else d.mode;
    d.(mode := mode, powers := WheelPowers(FieldCentricTwist(d, pad, heading, cos, sin)))
  }

  /** The motor debugging works on after this cycle's D-pad presses: up,
      right, left, down select left-front, right-front, left-rear,
      right-rear, the first pressed in that order winning; no press keeps
      the current one. */
  function SelectDebugMotor(pad: Gamepad.AimPad, current: Motor): (m: Motor)
    ensures !DPadPressed(pad) ==> m == current
    ensures m == LeftFront <==>
              Gamepad.Is(pad, Gamepad.Pressed, Gamepad.DPadUp)
              || (!DPadPressed(pad) && current == LeftFront)
    ensures m == RightFront <==>
              (!Gamepad.Is(pad, Gamepad.Pressed, Gamepad.DPadUp)
               && Gamepad.Is(pad, Gamepad.Pressed, Gamepad.DPadRight))
              || (!DPadPressed(pad) && current == RightFront)
    ensures m == LeftRear <==>
              (!Gamepad.Is(pad, Gamepad.Pressed, Gamepad.DPadUp)
               && !Gamepad.Is(pad, Gamepad.Pressed, Gamepad.DPadRight)
               && Gamepad.Is(pad, Gamepad.Pressed, Gamepad.DPadLeft))
              || (!DPadPressed(pad) && current == LeftRear)
    ensures m == RightRear <==>
              (!Gamepad.Is(pad, Gamepad.Pressed, Gamepad.DPadUp)
               && !Gamepad.Is(pad, Gamepad.Pressed, Gamepad.DPadRight)
               && !Gamepad.Is(pad, Gamepad.Pressed, Gamepad.DPadLeft)
               && Gamepad.Is(pad, Gamepad.Pressed, Gamepad.DPadDown))
              || (!DPadPressed(pad) && current == RightRear)
  {
    if Gamepad.Is(pad, Gamepad.Pressed, Gamepad.DPadUp) then LeftFront
    else if Gamepad.Is(pad, Gamepad.Pressed, Gamepad.DPadRight) then RightFront
    else if Gamepad.Is(pad, Gamepad.Pressed, Gamepad.DPadLeft) then LeftRear
    else if Gamepad.Is(pad, Gamepad.Pressed, Gamepad.DPadDown) then RightRear
    else current
  }

  /** The power of the selected motor while debugging: 0.7 in a cycle where
      Y is pressed, 0 otherwise (including while Y is held). */
  function DebugPower(pad: Gamepad.AimPad): (p: real)
    ensures p == 0.7 <==> Gamepad.Is(pad, Gamepad.Pressed, Gamepad.Y)
    ensures p == 0.0 <==> !Gamepad.Is(pad, Gamepad.Pressed, Gamepad.Y)
  {
    if Gamepad.Is(pad, Gamepad.Pressed, Gamepad.Y) then 0.7 else 0.0
  }

  /** The result of one `loop`: the new state, and the orientation the IMU
      was re-initialised with in this cycle, if any. */
  datatype LoopStep = LoopStep(drivebase: Drivebase, imuInit: Option<ImuOrientation.Orientation>)

  /** `directionDebugging`: select a motor, set its power from Y, flip its
      direction on A, and advance the IMU orientation on B. The mode, the
      other motors and everything else stay as they were. */
  function DirectionDebug(d: Drivebase, pad: Gamepad.AimPad): (r: LoopStep)
    requires Gamepad.Is(pad, Gamepad.Pressed, Gamepad.B) ==> 0 < |d.imuParameters|
    ensures r.drivebase.mode == d.mode
    ensures r.drivebase.activeDebugMotor == SelectDebugMotor(pad, d.activeDebugMotor)
    ensures r.drivebase.powers.Get(r.drivebase.activeDebugMotor) == DebugPower(pad)
    ensures forall m :: m != r.drivebase.activeDebugMotor ==> r.drivebase.powers.Get(m) == d.powers.Get(m)
    ensures Gamepad.Is(pad, Gamepad.Pressed, Gamepad.A) <==>
              r.drivebase.directions.Get(r.drivebase.activeDebugMotor)
              != d.directions.Get(r.drivebase.activeDebugMotor)
    ensures forall m :: m != r.drivebase.activeDebugMotor ==> r.drivebase.directions.Get(m) == d.directions.Get(m)
    ensures Gamepad.Is(pad, Gamepad.Pressed, Gamepad.B) ==>
              && r.drivebase.imuIndex == (d.imuIndex + 1) % |d.imuParameters|
              && r.drivebase.imuIndex < |d.imuParameters|
              && r.imuInit == Some(d.imuParameters[r.drivebase.imuIndex])
    ensures !Gamepad.Is(pad, Gamepad.Pressed, Gamepad.B) ==>
              r.drivebase.imuIndex == d.imuIndex && r.imuInit == None
    ensures r.drivebase == d.(activeDebugMotor := r.drivebase.activeDebugMotor,
                              powers := r.drivebase.powers,
                              directions := r.drivebase.directions,
                              imuIndex := r.drivebase.imuIndex)
  {
    var motor := SelectDebugMotor(pad, d.activeDebugMotor);
    var powers := d.powers.Set(motor, DebugPower(pad));
    var directions := if Gamepad.Is(pad, Gamepad.Pressed, Gamepad.A)
                      then d.directions.Set(motor, Toggle(d.directions.Get(motor)))
                      else d.directions;
    var next := d.(activeDebugMotor := motor, powers := powers, directions := directions);
    if Gamepad.Is(pad, Gamepad.Pressed, Gamepad.B) then
      var index := (d.imuIndex + 1) % |d.imuParameters|;
      LoopStep(next.(imuIndex := index), Some(d.imuParameters[index]))
    else
      LoopStep(next, None)
  }

  /** `loop`: dispatch on the mode held at the start of the cycle. A mode
      change made by a handler only takes effect in the next cycle. */
  function Loop(d: Drivebase, pad: Gamepad.AimPad, heading: real,
                cos: real -> real, sin: real -> real): (r: LoopStep)
    // only a B press while debugging indexes the orientation list
    requires d.mode == DirectionDebugging && Gamepad.Is(pad, Gamepad.Pressed, Gamepad.B)
             ==> 0 < |d.imuParameters|
    ensures Valid(d) ==> Valid(r.drivebase)
    ensures r.drivebase.imuParameters == d.imuParameters
    ensures r.drivebase.yMultiplier == d.yMultiplier && r.drivebase.xMultiplier == d.xMultiplier
    ensures r.drivebase.rxMultiplier == d.rxMultiplier
    ensures d.mode == DirectionDebugging ==> r.drivebase.mode == DirectionDebugging
    ensures d.mode != DirectionDebugging ==> r.imuInit == None && InUnitRange(r.drivebase.powers)
    ensures d.mode == Arcade ==> r.drivebase == ArcadeDrive(d, pad)
    ensures d.mode == FieldCentric ==> r.drivebase == FieldCentricDrive(d, pad, heading, cos, sin)
    ensures d.mode == DirectionDebugging ==> r == DirectionDebug(d, pad)
  {
    match d.mode
    case Arcade => LoopStep(ArcadeDrive(d, pad), None)
    case FieldCentric => LoopStep(FieldCentricDrive(d, pad, heading, cos, sin), None)
    case DirectionDebugging => DebugStepValid(d, pad); DirectionDebug(d, pad)
  }

  /** A debugging cycle keeps the state valid: the selected motor gets 0 or
      0.7 and the index stays inside the list. */
  lemma DebugStepValid(d: Drivebase, pad: Gamepad.AimPad)
    requires Gamepad.Is(pad, Gamepad.Pressed, Gamepad.B) ==> 0 < |d.imuParameters|
    ensures Valid(d) ==> Valid(DirectionDebug(d, pad).drivebase)
  {
    var r := DirectionDebug(d, pad).drivebase;
    if Valid(d) {
      forall m: Motor ensures -1.0 <= r.powers.Get(m) <= 1.0 {
        if m != r.activeDebugMotor {
          assert r.powers.Get(m) == d.powers.Get(m);
        }
      }
    }
  }

  /** ARCADE: both bumpers pressed go to FIELD_CENTRIC; otherwise any D-pad
      press goes to DIRECTION_DEBUGGING; otherwise the mode stays. The chord
      wins over a simultaneous D-pad press. */
  lemma ArcadeTransitions(d: Drivebase, pad: Gamepad.AimPad, heading: real,
                          cos: real -> real, sin: real -> real)
    requires d.mode == Arcade
    ensures Loop(d, pad, heading, cos, sin).drivebase.mode
         == if BumperChord(pad) then FieldCentric
            else if Gamepad.AnyDPad(pad, Gamepad.Pressed) then DirectionDebugging
            else Arcade
  {
    DPadPressedIsAnyDPad(pad);
  }

  /** FIELD_CENTRIC: both bumpers pressed go back to ARCADE; otherwise any
      D-pad press goes to DIRECTION_DEBUGGING; otherwise the mode stays. */
  lemma FieldCentricTransitions(d: Drivebase, pad: Gamepad.AimPad, heading: real,
                                cos: real -> real, sin: real -> real)
    requires d.mode == FieldCentric
    ensures Loop(d, pad, heading, cos, sin).drivebase.mode
         == if BumperChord(pad) then Arcade
            else if Gamepad.AnyDPad(pad, Gamepad.Pressed) then DirectionDebugging
            else FieldCentric
  {
    DPadPressedIsAnyDPad(pad);
  }

  /** The input of one cycle: the pad and the robot's heading. */
  datatype Cycle = Cycle(pad: Gamepad.AimPad, heading: real)

  /** The drivebase after running `loop` once per cycle. */
  function RunLoops(d: Drivebase, cycles: seq<Cycle>, cos: real -> real, sin: real -> real): Drivebase
    requires 0 < |d.imuParameters|
    decreases |cycles|
  {
    if |cycles| == 0 then d
    else
      var next := Loop(d, cycles[0].pad, cycles[0].heading, cos, sin).drivebase;
      RunLoops(next, cycles[1..], cos, sin)
  }

  /** No input leaves DIRECTION_DEBUGGING, over any number of cycles, and
      every cycle keeps the state valid. */
  lemma {:induction false} DebuggingIsAbsorbing(d: Drivebase, cycles: seq<Cycle>,
                                                cos: real -> real, sin: real -> real)
    requires 0 < |d.imuParameters|
    ensures Valid(d) ==> Valid(RunLoops(d, cycles, cos, sin))
    ensures d.mode == DirectionDebugging ==> RunLoops(d, cycles, cos, sin).mode == DirectionDebugging
    decreases |cycles|
  {
    if |cycles| > 0 {
      var next := Loop(d, cycles[0].pad, cycles[0].heading, cos, sin).drivebase;
      DebuggingIsAbsorbing(next, cycles[1..], cos, sin);
    }
  }

  /** A mode change is not acted on in the cycle that makes it: the bumper
      chord in ARCADE still drives that cycle with the arcade mix, and only
      the next cycle uses the field-centric one. */
  lemma ModeChangeTakesEffectNextLoop(d: Drivebase, pad: Gamepad.AimPad, next: Gamepad.AimPad,
                                      heading: real, nextHeading: real,
                                      cos: real -> real, sin: real -> real)
    requires d.mode == Arcade && BumperChord(pad)
    ensures var r := Loop(d, pad, heading, cos, sin).drivebase;
            && r.mode == FieldCentric
            && r.powers == WheelPowers(ArcadeTwist(d, pad))
            && Loop(r, next, nextHeading, cos, sin).drivebase.powers
               == WheelPowers(FieldCentricTwist(d, next, nextHeading, cos, sin))
  {
    var r := ArcadeDrive(d, pad);
    assert Loop(d, pad, heading, cos, sin).drivebase == r;
    assert r.mode == FieldCentric;
    TwistsReadOnlyMultipliers(r, d, next, nextHeading, cos, sin);
  }

  /** Both drive motions depend on the drivebase only through its multipliers. */
  lemma TwistsReadOnlyMultipliers(d: Drivebase, e: Drivebase, pad: Gamepad.AimPad, heading: real,
                                  cos: real -> real, sin: real -> real)
    requires d.yMultiplier == e.yMultiplier && d.xMultiplier == e.xMultiplier
    requires d.rxMultiplier == e.rxMultiplier
    ensures ArcadeTwist(d, pad) == ArcadeTwist(e, pad)
    ensures FieldCentricTwist(d, pad, heading, cos, sin) == FieldCentricTwist(e, pad, heading, cos, sin)
  {
  }

  /** With cos(-heading) = 1 and sin(-heading) = 0 (heading 0) the
      field-centric motion is the arcade motion. */
  lemma FieldCentricAtZeroHeading(d: Drivebase, pad: Gamepad.AimPad, heading: real,
                                  cos: real -> real, sin: real -> real)
    requires cos(-heading) == 1.0 && sin(-heading) == 0.0
    ensures FieldCentricTwist(d, pad, heading, cos, sin) == ArcadeTwist(d, pad)
  {
  }

  /** With unit multipliers, a left stick moved only along its y axis (and
      the right stick centred) drives all four wheels alike, at the stick's
      forward deflection `-y` (the gamepad reports forward as negative). */
  lemma PureForwardStick(d: Drivebase, pad: Gamepad.AimPad)
    requires d.yMultiplier == 1.0 && d.xMultiplier == 1.0 && d.rxMultiplier == 1.0
    requires Gamepad.LeftStickX(pad) == 0.0 && Gamepad.RightStickX(pad) == 0.0
    requires -1.0 <= Gamepad.LeftStickY(pad) <= 1.0
    ensures var f := -Gamepad.LeftStickY(pad);
            WheelPowers(ArcadeTwist(d, pad)) == PerMotor(f, f, f, f)
  {
    var t := ArcadeTwist(d, pad);
    assert t == Twist(-Gamepad.LeftStickY(pad), 0.0, 0.0);
    assert L1(t) <= 1.0;
  }

  /** Switching from ARCADE to DIRECTION_DEBUGGING does not stop the robot:
      the first debugging cycle only sets the selected motor, so the other
      three keep the powers of the last arcade cycle. */
  lemma DebuggingKeepsDrivingPowers(d: Drivebase, pad: Gamepad.AimPad, next: Gamepad.AimPad,
                                    heading: real, cos: real -> real, sin: real -> real)
    requires d.mode == Arcade
    requires !BumperChord(pad) && DPadPressed(pad)
    requires Gamepad.Is(next, Gamepad.Pressed, Gamepad.B) ==> 0 < |d.imuParameters|
    ensures var e := Loop(d, pad, heading, cos, sin).drivebase;
            var r := Loop(e, next, heading, cos, sin).drivebase;
            && e.mode == DirectionDebugging
            && r.mode == DirectionDebugging
            && forall m :: m != r.activeDebugMotor ==> r.powers.Get(m) == WheelPowers(ArcadeTwist(d, pad)).Get(m)
  {
    var e := Loop(d, pad, heading, cos, sin).drivebase;
    assert e == ArcadeDrive(d, pad);
    assert Loop(e, next, heading, cos, sin) == DirectionDebug(e, next);
  }

  /** Pressing B at the last orientation wraps around to the first. */
  lemma DebugIndexWraps(d: Drivebase, pad: Gamepad.AimPad)
    requires 0 < |d.imuParameters| && d.imuIndex == |d.imuParameters| - 1
    requires Gamepad.Is(pad, Gamepad.Pressed, Gamepad.B)
    ensures DirectionDebug(d, pad).drivebase.imuIndex == 0
    ensures DirectionDebug(d, pad).imuInit == Some(d.imuParameters[0])
  {
  }
}

=== FILE: mecanum_kinematics.dfy ===
/** Mecanum inverse kinematics as MecanumDrivebase computes it: a requested
    motion (forward y, strafe x, turn rx) becomes four wheel powers, scaled
    down together whenever their L1 size exceeds 1. */
module MecanumKinematics {
  import opened RealMath

  /** The four drive motors. */
  datatype Motor = LeftFront | RightFront | LeftRear | RightRear

  /** One value per motor. */
  datatype PerMotor<T> = PerMotor(leftFront: T, rightFront: T, leftRear: T, rightRear: T)
  {
    function Get(m: Motor): T
    {
      match m
      case LeftFront => leftFront
      case RightFront => rightFront
      case LeftRear => leftRear
      case RightRear => rightRear
    }

    /** The same values with the one of motor `m` replaced. */
    function Set(m: Motor, v: T): (r: PerMotor<T>)
      ensures r.Get(m) == v
      ensures forall n :: n != m ==> r.Get(n) == Get(n)
    {
      match m
      case LeftFront => this.(leftFront := v)
      case RightFront => this.(rightFront := v)
      case LeftRear => this.(leftRear := v)
      case RightRear => this.(rightRear := v)
    }
  }

  /** Every value lies in [-1, 1], the range `setPower` accepts. */
  predicate InUnitRange(w: PerMotor<real>)
  {
    forall m: Motor :: -1.0 <= w.Get(m) <= 1.0
  }

  lemma InUnitRangeByFields(w: PerMotor<real>)
    requires -1.0 <= w.leftFront <= 1.0 && -1.0 <= w.rightFront <= 1.0
    requires -1.0 <= w.leftRear <= 1.0 && -1.0 <= w.rightRear <= 1.0
    ensures InUnitRange(w)
  {
  }

  /** A requested motion: forward, strafe and turn. */
  datatype Twist = Twist(y: real, x: real, rx: real)

  /** The L1 size of a motion, |y| + |x| + |rx|. */
  function L1(t: Twist): real
  {
    Abs(t.y) + Abs(t.x) + Abs(t.rx)
  }

  /** `Math.max(|y| + |x| + |rx|, 1)`: never below 1, so dividing is safe;
      it is 1 for a small motion and the L1 size for a large one. */
  function Denominator(t: Twist): (d: real)
    ensures d >= 1.0 && d >= L1(t)
    ensures L1(t) <= 1.0 ==> d == 1.0
    ensures L1(t) >= 1.0 ==> d == L1(t)
  {
    Max(L1(t), 1.0)
  }

  /** The unnormalised mecanum mix of a motion. */
  function RawPowers(t: Twist): PerMotor<real>
  {
    PerMotor(t.y + t.x + t.rx, t.y - t.x - t.rx, t.y - t.x + t.rx, t.y + t.x - t.rx)
  }

  /** No raw power exceeds the L1 size of the motion. */
  lemma RawPowersWithinL1(t: Twist)
    ensures Abs(RawPowers(t).leftFront) <= L1(t) && Abs(RawPowers(t).rightFront) <= L1(t)
    ensures Abs(RawPowers(t).leftRear) <= L1(t) && Abs(RawPowers(t).rightRear) <= L1(t)
  {
    TriangleInequality3(t.y, t.x, t.rx);
    TriangleInequality3(t.y, -t.x, -t.rx);
    TriangleInequality3(t.y, -t.x, t.rx);
    TriangleInequality3(t.y, t.x, -t.rx);
  }

  /** Some raw power reaches the L1 size: the four mixes cover every sign
      pattern of (y, x, rx) up to a common sign. */
  lemma RawPowersReachL1(t: Twist)
    ensures exists m :: Abs(RawPowers(t).Get(m)) == L1(t)
  {
    var raw := RawPowers(t);
    if (t.x >= 0.0) == (t.y >= 0.0) {
      if (t.rx >= 0.0) == (t.y >= 0.0) {
        assert Abs(raw.Get(LeftFront)) == L1(t);
      } else {
        assert Abs(raw.Get(RightRear)) == L1(t);
      }
    } else {
      if (t.rx >= 0.0) == (t.y >= 0.0) {
        assert Abs(raw.Get(LeftRear)) == L1(t);
      } else {
        assert Abs(raw.Get(RightFront)) == L1(t);
      }
    }
  }

  /** One raw power divided by the denominator. */
  function Normalize(n: real, d: real): (q: real)
    requires d >= 1.0
    ensures q * d == n
    ensures d == 1.0 ==> q == n
  {
    n / d
  }

  /** Every raw power divided by the same d >= 1. If no raw value exceeds d
      in magnitude all powers lie in [-1, 1], and one of magnitude exactly d
      becomes a full power. */
  function ScaleDown(raw: PerMotor<real>, d: real): (w: PerMotor<real>)
    requires d >= 1.0
    ensures forall m :: w.Get(m) == raw.Get(m) / d
    ensures (forall m :: Abs(raw.Get(m)) <= d) ==> InUnitRange(w)
    ensures (exists m :: Abs(raw.Get(m)) == d) ==> exists m :: Abs(w.Get(m)) == 1.0
    ensures d == 1.0 ==> w == raw
  {
    var w := PerMotor(Normalize(raw.leftFront, d), Normalize(raw.rightFront, d),
                      Normalize(raw.leftRear, d), Normalize(raw.rightRear, d));
    ScaledFields(w, raw, d);
    QuotientsInUnitRange(w, raw, d);
    OneAtFullPower(w, raw, d);
    w
  }

  /** The wheel powers of `arcadeDrive` and `fieldCentricDrive`: each raw
      power divided by the denominator. Each lies in [-1, 1]; a motion of L1
      size at most 1 is passed through unscaled, and a larger one is scaled
      so that the strongest wheel runs at full power. */
  function WheelPowers(t: Twist): (w: PerMotor<real>)
    ensures forall m :: w.Get(m) == RawPowers(t).Get(m) / Denominator(t)
    ensures InUnitRange(w)
    ensures L1(t) <= 1.0 ==> w == RawPowers(t)
    ensures L1(t) >= 1.0 ==> exists m :: Abs(w.Get(m)) == 1.0
  {
    RawPowersWithinL1(t);
    RawPowersReachL1(t);
    ScaleDown(RawPowers(t), Denominator(t))
  }

  /** The per-field quotients of `ScaleDown`, read motor by motor. */
  lemma ScaledFields(w: PerMotor<real>, raw: PerMotor<real>, d: real)
    requires d >= 1.0
    requires w.leftFront == Normalize(raw.leftFront, d)
    requires w.rightFront == Normalize(raw.rightFront, d)
    requires w.leftRear == Normalize(raw.leftRear, d)
    requires w.rightRear == Normalize(raw.rightRear, d)
    ensures forall m :: w.Get(m) == raw.Get(m) / d
  {
    forall m ensures w.Get(m) == raw.Get(m) / d {
      match m
      case LeftFront =>
      case RightFront =>
      case LeftRear =>
      case RightRear =>
    }
  }

  /** Quotients of raw values bounded by d lie in [-1, 1]. */
  lemma QuotientsInUnitRange(w: PerMotor<real>, raw: PerMotor<real>, d: real)
    requires d >= 1.0
    requires forall m :: w.Get(m) == raw.Get(m) / d
    ensures (forall m :: Abs(raw.Get(m)) <= d) ==> InUnitRange(w)
  {
    if forall m :: Abs(raw.Get(m)) <= d {
      forall m ensures -1.0 <= w.Get(m) <= 1.0 {
        QuotientInUnitRange(raw.Get(m), d);
      }
    }
  }

  /** Powers that are raw values divided by d >= 1: if some raw value has
      magnitude d, its power has magnitude 1. */
  lemma OneAtFullPower(w: PerMotor<real>, raw: PerMotor<real>, d: real)
    requires d >= 1.0
    requires forall m :: w.Get(m) == raw.Get(m) / d
    ensures (exists m :: Abs(raw.Get(m)) == d) ==> exists m :: Abs(w.Get(m)) == 1.0
  {
    if m :| Abs(raw.Get(m)) == d {
      UnitQuotient(raw.Get(m), d);
    }
  }

  /** n / d with |n| == d >= 1 is 1 or -1. */
  lemma UnitQuotient(n: real, d: real)
    requires d >= 1.0 && Abs(n) == d
    ensures Abs(n / d) == 1.0
  {
    if n == d {
      assert n / d == 1.0;
    } else {
      assert n / d == -1.0;
    }
  }

  /** Forward kinematics of a mecanum base: the motion four wheel powers produce. */
  function MotionOf(w: PerMotor<real>): Twist
  {
    Twist((w.leftFront + w.rightFront + w.leftRear + w.rightRear) / 4.0,
          (w.leftFront - w.rightFront - w.leftRear + w.rightRear) / 4.0,
          (w.leftFront - w.rightFront + w.leftRear - w.rightRear) / 4.0)
  }

  /** The raw mix is exactly inverted by forward kinematics. */
  lemma RawPowersRoundTrip(t: Twist)
    ensures MotionOf(RawPowers(t)) == t
  {
  }

  /** Forward kinematics commutes with dividing every power by d. */
  lemma MixRoundTrip(y: real, x: real, rx: real, d: real, lf: real, rf: real, lr: real, rr: real)
    requires d >= 1.0
    requires lf == (y + x + rx) / d && rf == (y - x - rx) / d
    requires lr == (y - x + rx) / d && rr == (y + x - rx) / d
    ensures (lf + rf + lr + rr) / 4.0 == y / d
    ensures (lf - rf - lr + rr) / 4.0 == x / d
    ensures (lf - rf + lr - rr) / 4.0 == rx / d
  {
    assert lf * d == y + x + rx && rf * d == y - x - rx;
    assert lr * d == y - x + rx && rr * d == y + x - rx;
    assert (y / d) * d == y && (x / d) * d == x && (rx / d) * d == rx;
  }

  /** The normalised powers produce the requested motion divided by d: the
      direction of motion is kept, and when the request is small enough
      (L1 size at most 1) the motion is exactly the request. */
  lemma WheelPowersRoundTrip(t: Twist)
    ensures var d := Denominator(t);
            MotionOf(WheelPowers(t)) == Twist(t.y / d, t.x / d, t.rx / d)
    ensures L1(t) <= 1.0 ==> MotionOf(WheelPowers(t)) == t
  {
    var w := WheelPowers(t);
    MixRoundTrip(t.y, t.x, t.rx, Denominator(t), w.leftFront, w.rightFront, w.leftRear, w.rightRear);
    if L1(t) <= 1.0 {
      RawPowersRoundTrip(t);
    }
  }
}

=== FILE: pid_controller.dfy ===
/** PIDController: a closed-loop controller with a low-pass-filtered
    derivative, magnitude clamping of the integral, and an integral reset
    whenever the error changes sign. The elapsed time `dt` since the previous
    call is supplied by the caller instead of being read from a clock. */
module Pid {
  import opened RealMath
  import LowPass

  /** Gains fixed at construction. */
  datatype PidGains = PidGains(kP: real, kI: real, kD: real,
                               derivativeLowPassGain: real, integralSumMax: real)

  /** The controller's state between calls. */
  datatype Pid = Pid(gains: PidGains,
                     hasStarted: bool,
                     integralSum: real,
                     previousError: real,
                     derivativeFilter: LowPass.LowPassFilter)

  /** The controller after one call, and the value that call returned. */
  datatype PidStep = PidStep(pid: Pid, output: real)

  /** A new controller: not started, zero integral, zero previous error, and a
      fresh derivative filter with the given gain. */
  function Init(gains: PidGains): (p: Pid)
    ensures p.gains == gains
    ensures !p.hasStarted
    ensures p.integralSum == 0.0 && p.previousError == 0.0
    ensures p.derivativeFilter == LowPass.Init(gains.derivativeLowPassGain)
  {
    Pid(gains, false, 0.0, 0.0, LowPass.Init(gains.derivativeLowPassGain))
  }

  /** `hasErrorCrossedZero`: the error and the previous error have strictly
      opposite signs; a zero on either side is not a crossing. */
  predicate HasErrorCrossedZero(error: real, previousError: real)
    ensures HasErrorCrossedZero(error, previousError) ==> error != 0.0 && previousError != 0.0
  {
    (error > 0.0 && previousError < 0.0) || (error < 0.0 && previousError > 0.0)
  }

  /** A crossing is exactly a negative product of the two errors. */
  lemma CrossingIsNegativeProduct(error: real, previousError: real)
    ensures HasErrorCrossedZero(error, previousError) <==> error * previousError < 0.0
  {
    if error > 0.0 && previousError > 0.0 {
      ProductNonNegative(error, previousError);
    } else if error < 0.0 && previousError < 0.0 {
      ProductNonNegative(-error, -previousError);
    } else if error > 0.0 && previousError < 0.0 {
      assert error * (-previousError) > 0.0;
    } else if error < 0.0 && previousError > 0.0 {
      assert (-error) * previousError > 0.0;
    }
  }

  /** The anti-windup cap: a sum whose magnitude exceeds `max` is replaced by
      signum(sum) * max. For a non-negative `max` this is clipping to
      [-max, max]. */
  function ClampMagnitude(sum: real, max: real): (r: real)
    ensures max >= 0.0 ==> r == Min(Max(sum, -max), max)
    ensures max >= 0.0 ==> Abs(r) <= max
  {
    if Abs(sum) > max then Signum(sum) * max else sum
  }

  /** A clamp never moves a sum to the other side of zero when max >= 0;
      a negative `max` is not rejected and turns every non-zero sum into one
      of magnitude |max| and the opposite sign. */
  lemma ClampKeepsSign(sum: real, max: real)
    ensures max >= 0.0 ==> ClampMagnitude(sum, max) * sum >= 0.0
    ensures max < 0.0 ==> ClampMagnitude(sum, max) == Signum(sum) * max
  {
    var r := ClampMagnitude(sum, max);
    if max >= 0.0 {
      if sum >= 0.0 {
        ProductNonNegative(r, sum);
      } else {
        ProductNonNegative(-r, -sum);
      }
    }
  }

  /** `integrate(error, dt)`: the new integral sum. */
  function Integrate(integralSum: real, previousError: real, error: real,
                     dt: real, integralSumMax: real): (r: real)
    ensures integralSumMax >= 0.0 ==> Abs(r) <= integralSumMax
  {
    var base := if HasErrorCrossedZero(error, previousError) then 0.0 else integralSum;
    ClampMagnitude(base + error * dt, integralSumMax)
  }

  /** A strict sign change discards the old sum; otherwise (including a zero
      error on either side) the sum accumulates error * dt. Both are then capped. */
  lemma IntegrateResetsOnSignChange(integralSum: real, previousError: real, error: real,
                                    dt: real, integralSumMax: real)
    ensures error * previousError < 0.0 ==>
              Integrate(integralSum, previousError, error, dt, integralSumMax)
              == ClampMagnitude(error * dt, integralSumMax)
    ensures error * previousError >= 0.0 ==>
              Integrate(integralSum, previousError, error, dt, integralSumMax)
              == ClampMagnitude(integralSum + error * dt, integralSumMax)
  {
    CrossingIsNegativeProduct(error, previousError);
  }

  /** `calculateDerivative(error, dt)`: the raw slope (error - previousError) / dt
      passed through the controller's own low-pass filter. */
  function CalculateDerivative(filter: LowPass.LowPassFilter, error: real,
                               previousError: real, dt: real): (r: LowPass.Filtered)
    requires dt > 0.0
    ensures r.filter.gain == filter.gain
    ensures r.filter.prevOutput == r.output
    // the filter moves from its previous output towards the slope
    ensures var slope := (error - previousError) / dt;
            r.output - slope == filter.gain * (filter.prevOutput - slope)
  {
    LowPass.Filter(filter, (error - previousError) / dt)
  }

  /** `calculate(target, current)` with the elapsed time `dt` given. */
  function Calculate(p: Pid, target: real, current: real, dt: real): (r: PidStep)
    requires dt > 0.0
    ensures r.pid.gains == p.gains
    ensures r.pid.hasStarted
    // the error is remembered only after the derivative has used the old one
    ensures r.pid.previousError == target - current
    ensures r.pid.derivativeFilter
         == LowPass.Filter(p.derivativeFilter, (target - current - p.previousError) / dt).filter
    ensures r.pid.integralSum
         == Integrate(p.integralSum, p.previousError, target - current, dt, p.gains.integralSumMax)
    ensures p.gains.integralSumMax >= 0.0 ==> Abs(r.pid.integralSum) <= p.gains.integralSumMax
    ensures r.output == p.gains.kP * (target - current)
                      + p.gains.kI * r.pid.integralSum
                      + p.gains.kD * r.pid.derivativeFilter.prevOutput
  {
    var error := target - current;
    var derivative := CalculateDerivative(p.derivativeFilter, error, p.previousError, dt);
    var integralSum := Integrate(p.integralSum, p.previousError, error, dt, p.gains.integralSumMax);
    var next := Pid(p.gains, true, integralSum, error, derivative.filter);
    PidStep(next, p.gains.kP * error + p.gains.kI * next.integralSum
                  + p.gains.kD * next.derivativeFilter.prevOutput)
  }

  /** With kI = kD = 0 the output is exactly kP * (target - current), for every dt. */
  lemma ProportionalOnly(p: Pid, target: real, current: real, dt: real)
    requires dt > 0.0
    requires p.gains.kI == 0.0 && p.gains.kD == 0.0
    ensures Calculate(p, target, current, dt).output == p.gains.kP * (target - current)
  {
  }

  /** The controller after `n` calls with the same target, measurement and dt. */
  function RunConstant(p: Pid, target: real, current: real, dt: real, n: nat): Pid
    requires dt > 0.0
  {
    if n == 0 then p else Calculate(RunConstant(p, target, current, dt, n - 1), target, current, dt).pid
  }

  /** Min(Min(a, m) + b, m) == Min(a + b, m) for b >= 0 */
  lemma MinShift(a: real, b: real, m: real)
    requires b >= 0.0
    ensures Min(Min(a, m) + b, m) == Min(a + b, m)
  {
  }

  /** The setting of the saturation property: a constant positive error
      (target - current) with dt > 0, a non-negative cap, a sum within the cap
      and a previous error that is not negative. The last condition is
      needed: after a negative previous error the first positive error is a
      sign change and resets the sum (`NegativePreviousErrorResets`). */
  predicate SaturationSetting(p: Pid, target: real, current: real, dt: real)
  {
    && dt > 0.0
    && target - current > 0.0
    // implied by the two conditions around it, but kept as a fact of its own:
    // without it the solver must redo this nonlinear step in every proof below
    && (target - current) * dt >= 0.0
    && p.gains.integralSumMax >= 0.0
    && p.previousError >= 0.0
    && -p.gains.integralSumMax <= p.integralSum <= p.gains.integralSumMax
  }

  /** One call with a positive error, dt > 0 and a cap that is not negative
      enters the setting from any state: the previous error becomes that
      positive error and the sum is clamped into [-max, max]. So every run of
      a constant positive error is in the setting from its second call on. */
  lemma CalculateEntersSetting(p: Pid, target: real, current: real, dt: real)
    requires dt > 0.0 && target - current > 0.0
    requires p.gains.integralSumMax >= 0.0
    ensures SaturationSetting(Calculate(p, target, current, dt).pid, target, current, dt)
  {
    ProductPositive(target - current, dt);
  }

  /** A state the controller reaches with errors +5, 0, -1 (dt 1, cap 10):
      sum 4 and previous error -1. A constant error +1 from there drops the
      sum to 1, so the sum does not rise from every reachable state. */
  lemma NegativePreviousErrorResets(gains: PidGains)
    requires gains.integralSumMax == 10.0
    ensures var p1 := Calculate(Init(gains), 5.0, 0.0, 1.0).pid;
            var p2 := Calculate(p1, 0.0, 0.0, 1.0).pid;
            var p3 := Calculate(p2, 0.0, 1.0, 1.0).pid;
            var p4 := Calculate(p3, 1.0, 0.0, 1.0).pid;
            p3.integralSum == 4.0 && p3.previousError == -1.0 && p4.integralSum == 1.0
  {
  }

  /** One call in that setting stays in it: no reset happens, and the sum
      grows by error * dt up to the cap. */
  lemma ConstantErrorStep(q: Pid, target: real, current: real, dt: real)
    requires SaturationSetting(q, target, current, dt)
    ensures SaturationSetting(Calculate(q, target, current, dt).pid, target, current, dt)
    ensures Calculate(q, target, current, dt).pid.gains == q.gains
    ensures Calculate(q, target, current, dt).pid.hasStarted
    ensures Calculate(q, target, current, dt).pid.integralSum
         == Min(q.integralSum + (target - current) * dt, q.gains.integralSumMax)
  {
    assert !HasErrorCrossedZero(target - current, q.previousError);
  }

  /** n copies of `step` added up, one call at a time. */
  function Accumulated(step: real, n: nat): real
  {
    if n == 0 then 0.0 else Accumulated(step, n - 1) + step
  }

  /** The running sum of n equal additions is n times the addition. */
  lemma {:induction false} AccumulatedIsMultiple(step: real, n: nat)
    ensures Accumulated(step, n) == (n as real) * step
  {
    if n > 0 {
      AccumulatedIsMultiple(step, n - 1);
      MultipleSucc(n - 1, step);
    }
  }

  /** ConstantErrorStep stated on the n-th call of RunConstant. */
  lemma RunConstantStep(p: Pid, target: real, current: real, dt: real, n: nat)
    requires n > 0 && dt > 0.0
    requires SaturationSetting(RunConstant(p, target, current, dt, n - 1), target, current, dt)
    ensures SaturationSetting(RunConstant(p, target, current, dt, n), target, current, dt)
    ensures RunConstant(p, target, current, dt, n).gains == RunConstant(p, target, current, dt, n - 1).gains
    ensures RunConstant(p, target, current, dt, n).hasStarted
    ensures RunConstant(p, target, current, dt, n).integralSum
         == Min(RunConstant(p, target, current, dt, n - 1).integralSum + (target - current) * dt,
                RunConstant(p, target, current, dt, n - 1).gains.integralSumMax)
  {
    ConstantErrorStep(RunConstant(p, target, current, dt, n - 1), target, current, dt);
  }

  /** The sum after n capped additions of `step` to `sum`, one call at a time. */
  function CappedSum(sum: real, step: real, max: real, n: nat): real
  {
    if n == 0 then sum else Min(CappedSum(sum, step, max, n - 1) + step, max)
  }

  /** Capping once at the end is the same as capping after every addition,
      as long as nothing is ever subtracted and the start is under the cap. */
  lemma {:induction false} CappedSumClosedForm(sum: real, step: real, max: real, n: nat)
    requires step >= 0.0 && sum <= max
    ensures CappedSum(sum, step, max, n) == Min(sum + Accumulated(step, n), max)
  {
    if n > 0 {
      CappedSumClosedForm(sum, step, max, n - 1);
      MinShift(sum + Accumulated(step, n - 1), step, max);
    }
  }

  /** In that setting every call stays in it, and the integral sum follows
      CappedSum with step (target - current) * dt. */
  lemma {:induction false} RunConstantFollowsCappedSum(p: Pid, target: real, current: real, dt: real, n: nat)
    requires SaturationSetting(p, target, current, dt)
    ensures SaturationSetting(RunConstant(p, target, current, dt, n), target, current, dt)
    ensures RunConstant(p, target, current, dt, n).gains == p.gains
    ensures n > 0 ==> RunConstant(p, target, current, dt, n).hasStarted
    ensures RunConstant(p, target, current, dt, n).integralSum
         == CappedSum(p.integralSum, (target - current) * dt, p.gains.integralSumMax, n)
  {
    if n > 0 {
      RunConstantFollowsCappedSum(p, target, current, dt, n - 1);
      RunConstantStep(p, target, current, dt, n);
    }
  }

  /** In that setting, after n calls the sum is min(sum0 + n * e * dt, max),
      with n * e * dt reached as the running sum `Accumulated(e * dt, n)` of
      the n additions (`AccumulatedIsMultiple`); `hasStarted` is set from the
      first call on. */
  lemma ConstantErrorSaturates(p: Pid, target: real, current: real, dt: real, n: nat)
    requires SaturationSetting(p, target, current, dt)
    ensures SaturationSetting(RunConstant(p, target, current, dt, n), target, current, dt)
    ensures RunConstant(p, target, current, dt, n).gains == p.gains
    ensures n > 0 ==> RunConstant(p, target, current, dt, n).hasStarted
    ensures RunConstant(p, target, current, dt, n).integralSum
         == Min(p.integralSum + Accumulated((target - current) * dt, n), p.gains.integralSumMax)
  {
    RunConstantFollowsCappedSum(p, target, current, dt, n);
    CappedSumClosedForm(p.integralSum, (target - current) * dt, p.gains.integralSumMax, n);
  }

  /** In that setting the sum never decreases from one call to the next, and
      once sum0 + n * e * dt (the running sum `Accumulated`) reaches the cap
      it sits exactly at the cap. */
  lemma IntegralSumRisesToCap(p: Pid, target: real, current: real, dt: real, n: nat)
    requires SaturationSetting(p, target, current, dt)
    ensures RunConstant(p, target, current, dt, n).integralSum
         <= RunConstant(p, target, current, dt, n + 1).integralSum
    ensures p.integralSum + Accumulated((target - current) * dt, n) >= p.gains.integralSumMax ==>
              RunConstant(p, target, current, dt, n).integralSum == p.gains.integralSumMax
  {
    ConstantErrorSaturates(p, target, current, dt, n);
    ConstantErrorSaturates(p, target, current, dt, n + 1);
  }

  /** Adding a positive error * dt to a sum below the cap and capping again
      gives a larger sum. */
  lemma CappedStepRises(sum: real, error: real, dt: real, max: real)
    requires sum < max && error > 0.0 && dt > 0.0
    ensures sum < Min(sum + error * dt, max)
  {
    ProductPositive(error, dt);
  }

  /** In that setting, while the sum is below the cap every further call
      strictly increases it. */
  lemma IntegralSumRisesBelowCap(p: Pid, target: real, current: real, dt: real, n: nat)
    requires SaturationSetting(p, target, current, dt)
    ensures var q := RunConstant(p, target, current, dt, n);
            q.integralSum < p.gains.integralSumMax ==>
              q.integralSum < Calculate(q, target, current, dt).pid.integralSum
  {
    var q := RunConstant(p, target, current, dt, n);
    if q.integralSum < p.gains.integralSumMax {
      assert SaturationSetting(q, target, current, dt) && q.gains == p.gains by {
        RunConstantFollowsCappedSum(p, target, current, dt, n);
      }
      ConstantErrorStep(q, target, current, dt);
      CappedStepRises(q.integralSum, target - current, dt, p.gains.integralSumMax);
    }
  }

  /** Errors +1, +1, -1 from a fresh controller: the sign flip on the third
      call discards the accumulated sum, leaving -dt3 (given a cap of at
      least dt1 + dt2 and at least dt3, so that nothing is clamped). */
  lemma SignFlipResetsIntegral(gains: PidGains, dt1: real, dt2: real, dt3: real)
    requires dt1 > 0.0 && dt2 > 0.0 && dt3 > 0.0
    requires gains.integralSumMax >= dt1 + dt2 && gains.integralSumMax >= dt3
    ensures var p1 := Calculate(Init(gains), 1.0, 0.0, dt1).pid;
            var p2 := Calculate(p1, 1.0, 0.0, dt2).pid;
            var p3 := Calculate(p2, 0.0, 1.0, dt3).pid;
            p2.integralSum == dt1 + dt2 && p3.integralSum == -dt3
  {
  }
}

=== FILE: real_math.dfy ===
/** Small real-number helpers standing in for java.lang.Math on doubles.
    Doubles are idealised as exact reals: no NaN, infinities or rounding. */
module RealMath {

  /** Math.abs */
  function Abs(x: real): (r: real)
    ensures r >= 0.0
    ensures r == x || r == -x
  {
    if x < 0.0 then -x else x
  }

  /** Math.max */
  function Max(a: real, b: real): (r: real)
    ensures r >= a && r >= b
    ensures r == a || r == b
  {
    if a >= b then a else b
  }

  function Min(a: real, b: real): (r: real)
    ensures r <= a && r <= b
    ensures r == a || r == b
  {
    if a <= b then a else b
  }

  /** Math.signum: -1, 0 or 1 according to the sign of x */
  function Signum(x: real): (r: real)
    ensures r * x == Abs(x)
    ensures r == 0.0 <==> x == 0.0
    ensures r == 1.0 || r == 0.0 || r == -1.0
  {
    if x > 0.0 then 1.0 else if x < 0.0 then -1.0 else 0.0
  }

  /** b raised to the natural power n */
  function Pow(b: real, n: nat): real
  {
    if n == 0 then 1.0 else b * Pow(b, n - 1)
  }

  /** |a + b + c| never exceeds |a| + |b| + |c| */
  lemma TriangleInequality3(a: real, b: real, c: real)
    ensures Abs(a + b + c) <= Abs(a) + Abs(b) + Abs(c)
  {
  }

  /** A quotient n / d with |n| <= d (so d > 0) lies in [-1, 1] */
  lemma QuotientInUnitRange(n: real, d: real)
    requires d >= 1.0
    requires Abs(n) <= d
    ensures -1.0 <= n / d <= 1.0
  {
    assert (n / d) * d == n;
  }

  /** Scaling a non-negative amount by a factor in [0, 1] does not enlarge it */
  lemma ScaleAtMost(g: real, e: real)
    requires 0.0 <= g <= 1.0
    requires e >= 0.0
    ensures 0.0 <= g * e <= e
  {
    assert e - g * e == (1.0 - g) * e;
  }

  /** Scaling a positive amount by a factor in [0, 1) strictly shrinks it */
  lemma ScaleBelow(g: real, e: real)
    requires 0.0 <= g < 1.0
    requires e > 0.0
    ensures 0.0 <= g * e < e
  {
    assert e - g * e == (1.0 - g) * e;
  }

  /** The product of two non-negative reals is non-negative */
  lemma ProductNonNegative(a: real, b: real)
    requires a >= 0.0 && b >= 0.0
    ensures a * b >= 0.0
  {
  }

  /** The product of two positive reals is positive */
  lemma ProductPositive(a: real, b: real)
    requires a > 0.0 && b > 0.0
    ensures a * b > 0.0
  {
  }

  /** Scaling by a positive factor keeps the sign: a·m > 0 exactly when a > 0 */
  lemma PositiveScaleKeepsSign(a: real, m: real)
    requires m > 0.0
    ensures a * m > 0.0 <==> a > 0.0
  {
    if a > 0.0 {
      ProductPositive(a, m);
    } else {
      ProductNonNegative(-a, m);
    }
  }

  /** (k + 1) * s == k * s + s */
  lemma MultipleSucc(k: nat, s: real)
    ensures ((k + 1) as real) * s == (k as real) * s + s
  {
  }

  lemma MulAssociative(a: real, b: real, c: real)
    ensures a * (b * c) == (a * b) * c
  {
  }

  lemma ScaleZero(a: real, b: real)
    requires b == 0.0
    ensures a * b == 0.0
  {
  }

  /** t == g * e with g in [0, 1) and e > 0: t lies in [0, e) */
  lemma ContractPositive(g: real, e: real, t: real)
    requires 0.0 <= g < 1.0
    requires t == g * e
    requires e > 0.0
    ensures 0.0 <= t < e
  {
    ScaleBelow(g, e);
  }

  /** t == g * e with g in [0, 1) and e < 0: t lies in (e, 0] */
  lemma ContractNegative(g: real, e: real, t: real)
    requires 0.0 <= g < 1.0
    requires t == g * e
    requires e < 0.0
    ensures e < t <= 0.0
  {
    ContractPositive(g, -e, -t);
  }

  /** t == g * e with g in [0, 1): t lies between 0 and e, strictly closer
      to 0 than e unless e is 0 */
  lemma ContractionStep(g: real, e: real, t: real)
    requires 0.0 <= g < 1.0
    requires t == g * e
    ensures e > 0.0 ==> 0.0 <= t < e
    ensures e < 0.0 ==> e < t <= 0.0
    ensures e == 0.0 ==> t == 0.0
  {
    if e > 0.0 {
      ContractPositive(g, e, t);
    } else if e < 0.0 {
      ContractNegative(g, e, t);
    } else {
      ScaleZero(g, e);
    }
  }

  /** t == g * e with g in [0, 1]: t lies between 0 and e */
  lemma ScaledBetween(g: real, e: real, t: real)
    requires 0.0 <= g <= 1.0
    requires t == g * e
    ensures e >= 0.0 ==> 0.0 <= t <= e
    ensures e <= 0.0 ==> e <= t <= 0.0
  {
    if e >= 0.0 {
      ScaleAtMost(g, e);
    } else {
      ScaledBetweenNegative(g, e, t);
    }
  }

  lemma ScaledBetweenNegative(g: real, e: real, t: real)
    requires 0.0 <= g <= 1.0
    requires t == g * e
    requires e < 0.0
    ensures e <= t <= 0.0
  {
    ScaleAtMost(g, -e);
    assert -t == g * (-e);
  }
}
